=== FILE: README.md ===
# YaCy crawl stacker and DHT index transfer, modelled in Dafny

This project models two parts of a YaCy peer.

- **The crawl stacker** (`plasmaCrawlStacker`). It accepts candidate URLs (`enqueue`) and parks
  each one as a `stackCrawlMessage` record in a de-duplicating FIFO (`stackCrawlQueue`): a list of
  URL hashes next to a keyed on-disk store. It later takes each message off the queue (`dequeue`)
  and runs it through the admission filter (`stackCrawl`). The filter rejects the URL with the
  reason of the first failing check, or puts it on the limit, core or remote stack of the crawl
  frontier.
- **The DHT transfer worker** (`plasmaDHTTransfer`). It uploads one chunk of the reverse word
  index to a remote peer (`uploadIndex`). It retries after "busy" and error replies, pings the
  peer to reconnect after a hard error, and gives up once the retry counter passes `maxRetry`.
  It watches for a stop request between steps (`isAborted`) and sleeps in one-second slices
  (`pause`), honouring the pause a busy peer asks for (`getBusyTime`).

Files:

- `util.dfy`: `Option`, `Result`, `NoDuplicates`.
- `java_text.dfy`: the Java library behaviour the core depends on. That is `Integer.parseInt`,
  `Integer.toHexString`, `String.trim` and long division rounding toward zero.
- `crawl_message.dfy`: the message, its stored record (`getBytes`) and the reader that rebuilds
  a message from a record.
- `crawl_admission.dfy`: `stackCrawl`'s checks, as a pure function over an `Environment`. Every
  lookup into the rest of the peer is a field of `Environment`: DNS, blacklist, regex, URL
  databases, robots.txt and the own seed.
- `crawl_queue.dfy`: the queue's specification on values (`QueueState`, `Put`, `Take`, `Restore`)
  and the class `StackQueue`, whose fields are the hash list and the store.
- `crawl_stacker.dfy`: the class `Stacker`, with the frontier as the sequence of entries made.
- `dht_transfer.dfy`: the transfer worker as the class `Transfer`. Its methods are proved against
  the step functions `TransferStep`/`ReconnectStep` and the loop functions `Outer`/`Reconnect`.

Inputs the code reads from outside are parameters of the model:

- The network is an input stream. The k-th `transferIndex` reply is `io.replies(k)` and the k-th
  ping result is `io.pingResults(k)`.
- A stop from another thread is an input too. `io.stopRequested(k)` says whether `stopIt` has
  been called by the k-th `isAborted` check. A thread interrupt is not modelled (see "## Left out").
- Sleeping is a counter, `slept`, which grows by each sleep's length.
- The clock (`new Date()`) is the parameter `now`.
- The profile database is a map from handle to profile.

The getters `getStatus`, `getStatusMessage` and `getPayloadSize` are the field reads
`Transfer.GetStatus`, `Transfer.GetStatusMessage` and `Transfer.GetPayloadSize`. Status messages
are the datatype `Note`, one constructor per message the source writes, without the peer names.

## Model

| member | source | states |
|---|---|---|
| JavaText.ParseInt | source/de/anomic/plasma/plasmaDHTTransfer.java:253 | `Integer.valueOf`/`parseInt` of the Java 5 and 6 libraries accepts an optional '-' and the ASCII decimal digits; any value it returns fits in an int, and null, a leading '+' or malformed input is None (NumberFormatException) |
| JavaText.ParseToString | source/de/anomic/plasma/plasmaDHTTransfer.java:253 | parsing inverts `Integer.toString` on every int |
| JavaText.ParseLeadingZeros | source/de/anomic/plasma/plasmaCrawlStacker.java:430 | leading zeros change neither whether an unsigned string parses nor its value |
| JavaText.ToHexString | source/de/anomic/plasma/plasmaCrawlStacker.java:507 | `Integer.toHexString` writes at least one hex digit, and the digits hold the int's 32-bit pattern |
| JavaText.Trim | source/de/anomic/plasma/plasmaCrawlStacker.java:421-425 | `String.trim` returns the middle of the string with only white space cut from either end; the result has no white space at either end, and the string is left unchanged exactly when it has none there |
| CrawlMessage.Message.InitiatorHash | source/de/anomic/plasma/plasmaCrawlStacker.java:445-449 | `initiatorHash()` is null exactly when the initiator is null or empty, and otherwise the initiator |
| CrawlMessage.NewMessage | source/de/anomic/plasma/plasmaCrawlStacker.java:385-412 | the first constructor: url hash and referrer hash from `urlHash` on a string, and a storable message (`Some`) exactly when both hashes are non-null (`getBytes` dereferences them at lines 490 and 493); `dummyHash` for a null referrer, "" for a null name, the current time for a null load date, cleared flags and handle 0; its store behaviour is stated by `StoreRoundTrip` and `NewMessageSurvivesStoreAsWritten` |
| CrawlMessage.DayStart | source/de/anomic/plasma/plasmaCrawlStacker.java:485 | the stored load date, rounded toward zero to a whole day, lies within one day of the original and is a multiple of a day |
| CrawlMessage.DayRoundTrip | source/de/anomic/plasma/plasmaCrawlStacker.java:424 | a day count turned back into milliseconds divides back to the same day |
| CrawlMessage.PaddedHex | source/de/anomic/plasma/plasmaCrawlStacker.java:506-510 | the handle is written with at least `urlHandleLength` characters, and never empty |
| CrawlMessage.PaddedHexValue | source/de/anomic/plasma/plasmaCrawlStacker.java:506-510 | the padded handle is a hex digit string whose value is the handle's unsigned 32 bits |
| CrawlMessage.NormalizeHandle | source/de/anomic/plasma/plasmaCrawlStacker.java:506-510 | `normalizeHandle` returns the padded hex form of the handle |
| CrawlMessage.PadWithZeros | source/de/anomic/plasma/plasmaCrawlStacker.java:508 | the padding loop prepends exactly enough '0's to reach the width, and none to a string already that long |
| CrawlMessage.GetBytes | source/de/anomic/plasma/plasmaCrawlStacker.java:483-504 | the record `getBytes` writes: a null initiator as "", the load date as a day count, the handle padded in hex; `StoreRoundTrip` states what reading it back yields |
| CrawlMessage.DecodeHandle | source/de/anomic/plasma/plasmaCrawlStacker.java:430 | the corrected handle reader reads hex and only ever yields an int |
| CrawlMessage.DecodeHandleAsWritten | source/de/anomic/plasma/plasmaCrawlStacker.java:430 | the handle reader as written, `Integer.parseInt` in decimal; `HandleSurvivesAsWrittenIff` states which handles it reads back |
| CrawlMessage.DecodeAsWritten | source/de/anomic/plasma/plasmaCrawlStacker.java:414-435 | the second constructor as written: fields trimmed, `dummyHash` for a null referrer, "" for a null name, midnight of the stored day, IllegalStateException when the handle does not parse in decimal; `DecodeAgreesAsWritten` relates it to `Decode` |
| CrawlMessage.Decode | source/de/anomic/plasma/plasmaCrawlStacker.java:414-435 | the second constructor with the hex handle reader; `StoreRoundTrip` states that it reads every stored message back |
| CrawlMessage.HandleRoundTrip | source/de/anomic/plasma/plasmaCrawlStacker.java:506-510 | every int handle survives `normalizeHandle` followed by the hex reader |
| CrawlMessage.HandleMisreadAsWritten | source/de/anomic/plasma/plasmaCrawlStacker.java:430 | the decimal reader as written reads handle 16 back as 10 |
| CrawlMessage.HandleRejectedAsWritten | source/de/anomic/plasma/plasmaCrawlStacker.java:430 | the decimal reader as written rejects handle 10, written "a", so the record cannot be read |
| CrawlMessage.SmallHandlesSurviveAsWritten | source/de/anomic/plasma/plasmaCrawlStacker.java:430 | the decimal reader as written still reads handles 0 to 9 correctly |
| CrawlMessage.HandleSurvivesAsWrittenIff | source/de/anomic/plasma/plasmaCrawlStacker.java:430 | the reader as written reads a written handle back exactly when it is 0 to 9; every other int is misread or rejected |
| CrawlMessage.DecodeAgreesAsWritten | source/de/anomic/plasma/plasmaCrawlStacker.java:414-435 | for handles 0 to 9, which include the only handle the source builds (0), the reader as written and the hex reader rebuild the same message |
| CrawlMessage.NewMessageSurvivesStoreAsWritten | source/de/anomic/plasma/plasmaCrawlStacker.java:385-412 | a newly built message carries handle 0, which even the reader as written reads back |
| CrawlMessage.StoreRoundTrip | source/de/anomic/plasma/plasmaCrawlStacker.java:414-435 | a stored message reads back field by field: a null initiator as empty (still read as null), the url, name and profile trimmed, the load date as the start of its day, everything else unchanged |
| CrawlMessage.OwnMessageStaysOwn | source/de/anomic/plasma/plasmaCrawlStacker.java:420 | a message without an initiator reads back without one |
| CrawlMessage.StoreRoundTripStable | source/de/anomic/plasma/plasmaCrawlStacker.java:483-504 | storing and reading back a message that was read back changes nothing more |
| CrawlAdmission.EffectiveInitiator | source/de/anomic/plasma/plasmaCrawlStacker.java:244 | a null or empty initiator becomes `dummyHash`, any other is kept |
| CrawlAdmission.StackFor | source/de/anomic/plasma/plasmaCrawlStacker.java:363-364 | the limit stack iff global, else the core stack iff local, else the remote stack |
| CrawlAdmission.IsLocal | source/de/anomic/plasma/plasmaCrawlStacker.java:341 | a URL is local when its effective initiator is `dummyHash` or the own seed's hash; `AdmittedEntry` states its effect on the stack |
| CrawlAdmission.IsGlobal | source/de/anomic/plasma/plasmaCrawlStacker.java:342-348 | a URL is global when the profile is non-null and allows remote indexing, the depth is the profile's depth, the initiator is the own seed and the seed is senior or principal; `AdmittedEntry` states its effect on the stack |
| CrawlAdmission.EntryFor | source/de/anomic/plasma/plasmaCrawlStacker.java:354-365 | the arguments of the one `newEntry` call; `AdmittedEntry` states its fields and stack |
| CrawlAdmission.Admit | source/de/anomic/plasma/plasmaCrawlStacker.java:222-368 | `stackCrawl`'s verdict; `AdmitIsFirstFailure` states it is the first failing check of `Checks`, or admission with `EntryFor` when every check passes |
| CrawlAdmission.Checks | source/de/anomic/plasma/plasmaCrawlStacker.java:231-338 | a null URL has the one null check; any other URL has the ten checks in source order |
| CrawlAdmission.FirstFailureSpec | source/de/anomic/plasma/plasmaCrawlStacker.java:230-338 | no reason is reported iff no check fails, and a reported reason is that of a failing check before which every check passes |
| CrawlAdmission.FirstFailureAt | source/de/anomic/plasma/plasmaCrawlStacker.java:230-338 | a failing check preceded only by passing checks decides the reason |
| CrawlAdmission.AdmitIsFirstFailure | source/de/anomic/plasma/plasmaCrawlStacker.java:222-368 | `stackCrawl` is denied with the first failing check's reason, and admitted with its frontier entry exactly when every check passes |
| CrawlAdmission.EarlyDenial | source/de/anomic/plasma/plasmaCrawlStacker.java:243-281 | a URL failing the form, host, private address, loopback or blacklist check is denied for the first of these |
| CrawlAdmission.LateVerdict | source/de/anomic/plasma/plasmaCrawlStacker.java:283-367 | after the first five checks pass, the filter, CGI, POST, double and robots.txt checks decide in that order |
| CrawlAdmission.NullUrlNeedsNoLookup | source/de/anomic/plasma/plasmaCrawlStacker.java:231-235 | a null URL is denied as `denied_(url_null)` whatever the environment |
| CrawlAdmission.SiteLocalBeforeLoopback | source/de/anomic/plasma/plasmaCrawlStacker.java:262-272 | a host both site-local and loopback is reported as a private address |
| CrawlAdmission.FilterNeedsDepthAndProfile | source/de/anomic/plasma/plasmaCrawlStacker.java:284 | the crawl filter regex does not matter at depth 0 or without a profile |
| CrawlAdmission.PostNeedsRestrictiveProfile | source/de/anomic/plasma/plasmaCrawlStacker.java:306 | the POST test does not matter without a profile or with one that allows query URLs |
| CrawlAdmission.OwnUrlsAreNeverRemote | source/de/anomic/plasma/plasmaCrawlStacker.java:341-364 | an admitted URL with a null or empty initiator is recorded with `dummyHash` and never goes on the remote stack |
| CrawlAdmission.AdmittedEntry | source/de/anomic/plasma/plasmaCrawlStacker.java:340-365 | an admitted URL's entry carries the URL, the effective initiator, the profile handle and zero anchors and fork factor, on the stack the global and local tests choose; a null referrer gives a null referrer hash |
| CrawlQueue.CountMatches | source/de/anomic/plasma/plasmaCrawlStacker.java:603-607 | a duplicate-free list has as many elements as the set of its elements |
| CrawlQueue.Put | source/de/anomic/plasma/plasmaCrawlStacker.java:588-592 | `addMessage`'s effect on list and store; `PutKeepsConsistent` and `PutTwice` state its properties |
| CrawlQueue.Take | source/de/anomic/plasma/plasmaCrawlStacker.java:617-620 | `waitForMessage`'s removal of the oldest hash and its record; `TakeKeepsConsistent` states its properties |
| CrawlQueue.SizeAgrees | source/de/anomic/plasma/plasmaCrawlStacker.java:603-607 | in a consistent queue the hash list and the store have the same size |
| CrawlQueue.PutKeepsConsistent | source/de/anomic/plasma/plasmaCrawlStacker.java:588-592 | `addMessage` keeps list and store consistent, always stores the record, and lists the hash (size + 1) only when it was not stored before |
| CrawlQueue.PutTwice | source/de/anomic/plasma/plasmaCrawlStacker.java:588-592 | adding the same record twice is the same as adding it once |
| CrawlQueue.TakeKeepsConsistent | source/de/anomic/plasma/plasmaCrawlStacker.java:617-620 | taking keeps the queue consistent, finds nothing only on an empty queue, and otherwise delivers the oldest hash with its record |
| CrawlQueue.DrainIsOrder | source/de/anomic/plasma/plasmaCrawlStacker.java:609-627 | a consistent queue delivers its hashes in list order |
| CrawlQueue.PutAllAppends | source/de/anomic/plasma/plasmaCrawlStacker.java:580-601 | adding new, distinct records appends their hashes to the list in order and keeps the queue consistent |
| CrawlQueue.FifoDelivery | source/de/anomic/plasma/plasmaCrawlStacker.java:580-627 | messages added to an empty queue are delivered in the order they were added |
| CrawlQueue.RestoreAsWritten | source/de/anomic/plasma/plasmaCrawlStacker.java:534-569 | the queue the constructor builds as written, keeping replayed hashes after a fault; `RestoreAsWrittenLeavesDanglingHash` shows the resulting inconsistency |
| CrawlQueue.Restore | source/de/anomic/plasma/plasmaCrawlStacker.java:534-569 | the queue with the reset completed; `RestoreIsConsistent` states it is consistent and equals the code as written when nothing faults |
| CrawlQueue.RestoreAsWrittenLeavesDanglingHash | source/de/anomic/plasma/plasmaCrawlStacker.java:556-564 | the reset as written keeps a replayed hash with no record behind it, so the next take yields a null record |
| CrawlQueue.RestoreIsConsistent | source/de/anomic/plasma/plasmaCrawlStacker.java:534-569 | the corrected reset opens every well-formed store file as a consistent queue, and equals the code as written when no fault occurs |
| CrawlQueue.Receive | source/de/anomic/plasma/plasmaCrawlStacker.java:625 | the message rebuilt from a pickup: a hash without a record throws NullPointerException (line 416), nothing taken blocks; `AddThenWait` states what a stored message comes back as |
| CrawlQueue.StackQueue.constructor | source/de/anomic/plasma/plasmaCrawlStacker.java:520-570 | the replay loop lists the store's keys in iteration order and skips null nodes; a fault leaves an empty queue |
| CrawlQueue.StackQueue.AddMessage | source/de/anomic/plasma/plasmaCrawlStacker.java:580-601 | the new state is `Put` of the message's record, and the queue stays consistent |
| CrawlQueue.StackQueue.Size | source/de/anomic/plasma/plasmaCrawlStacker.java:603-607 | the size is the length of the hash list, which equals the number of stored records |
| CrawlQueue.StackQueue.WaitForMessage | source/de/anomic/plasma/plasmaCrawlStacker.java:609-627 | the oldest hash and its record are removed and the message is rebuilt from the record; an empty queue blocks |
| CrawlQueue.AddThenWait | source/de/anomic/plasma/plasmaCrawlStacker.java:580-627 | a message added to an empty queue is the one the next take rebuilds, and it reads back successfully; for handles 0 to 9 (the source only builds 0) the reader as written rebuilds the same message |
| CrawlStacker.DequeueRequest | source/de/anomic/plasma/plasmaCrawlStacker.java:212-219 | the `stackCrawl` arguments `dequeue` passes: the URL, the stored referrer hash, the initiator hash, name, load date, depth and profile; `DequeueHashesReferrerHash` states the entry it leads to |
| CrawlStacker.DequeueHashesReferrerHash | source/de/anomic/plasma/plasmaCrawlStacker.java:212-219 | the frontier entry of a dequeued message records `urlHash` applied to its stored referrer hash (null when that gives null), its URL and its profile handle |
| CrawlStacker.OwnEnqueuedUrlsStayLocal | source/de/anomic/plasma/plasmaCrawlStacker.java:178-201 | a URL enqueued without an initiator, whose message can be stored, keeps no initiator through the store and, if admitted, never goes on the remote stack |
| CrawlStacker.Stacker.constructor | source/de/anomic/plasma/plasmaCrawlStacker.java:81-85 | the stacker opens its queue from the store file, and the frontier starts without entries from it |
| CrawlStacker.Stacker.Size | source/de/anomic/plasma/plasmaCrawlStacker.java:148-150 | the size is the number of queued hashes, which equals the number of stored records |
| CrawlStacker.Stacker.StackCrawl | source/de/anomic/plasma/plasmaCrawlStacker.java:222-368 | returns the denial reason and leaves the frontier alone, or returns null after exactly one frontier entry |
| CrawlStacker.Stacker.Dequeue | source/de/anomic/plasma/plasmaCrawlStacker.java:203-220 | an unknown profile handle throws IllegalStateException with the frontier untouched; otherwise the message goes through `stackCrawl` with the stored referrer hash |
| CrawlStacker.Stacker.Enqueue | source/de/anomic/plasma/plasmaCrawlStacker.java:178-201 | a null URL or profile changes nothing, and neither does a URL or referrer whose hash is null (the exception at line 490 or 493 is swallowed at 198-200); otherwise the new message's record is added to the queue |
| DhtTransfer.BusyTime | source/de/anomic/plasma/plasmaDHTTransfer.java:247-258 | -1 iff the reply has no pause request, otherwise a pause within [0, 30000] |
| DhtTransfer.BusyTimeClamp | source/de/anomic/plasma/plasmaDHTTransfer.java:251-256 | a requested pause within [0, 30000] is kept, a larger one cut to 30000, a negative or unparsable one becomes 5000 |
| DhtTransfer.Check | source/de/anomic/plasma/plasmaDHTTransfer.java:96-103 | `isAborted` sees a stop iff one was set or requested through `stopIt`; a stop sets INTERRUPTED and "aborted"; otherwise nothing else changes |
| DhtTransfer.SleepLoop | source/de/anomic/plasma/plasmaDHTTransfer.java:264-267 | the loop makes at most `counter` one-second sleeps and at most `counter` + 1 abort checks, and sleeps all of them when no stop is seen; `SleepLoopStops` states when it stops |
| DhtTransfer.SleepLoopStops | source/de/anomic/plasma/plasmaDHTTransfer.java:264-267 | the loop sleeps one second after each abort check that saw no stop, and ends at the first check that sees a stop or when `counter` runs out: the sleeps are one fewer than the checks, every check but the last saw no stop request, the last one decides the stop flag, stopping before `counter` sleeps means a stop was seen, and an agent already stopped makes one check and no sleep |
| DhtTransfer.Paused | source/de/anomic/plasma/plasmaDHTTransfer.java:260-269 | `pause(t)` does nothing for 0 and never sleeps more than t; for t > 0 it sleeps one second after each check that saw no stop, stops the whole seconds at the first check that sees a stop (`stopIt`), and then sleeps the remainder t % 1000 in either case; it sleeps exactly t when no stop is seen; a stop seen sets INTERRUPTED and "aborted"; nothing else changes |
| DhtTransfer.ErrorWait | source/de/anomic/plasma/plasmaDHTTransfer.java:184-203 | the wait after a busy reply is at most 60000 ms |
| DhtTransfer.PingFailedNote | source/de/anomic/plasma/plasmaDHTTransfer.java:232 | the failed-ping message carries the retry count and says "Transfer aborted." iff the count passes 5 |
| DhtTransfer.Delivered | source/de/anomic/plasma/plasmaDHTTransfer.java:146-176 | after a successful reply: payload size kept, the finished message in DISTRIBUTION mode or the busy-time pause in FLUSH mode, then COMPLETE; `TransferStepEnds` states the settled outcome |
| DhtTransfer.AfterError | source/de/anomic/plasma/plasmaDHTTransfer.java:186-203 | the busy message with its wait, or the failure message with a peer departure; `TransferStepGoesOn` and `TransferStepEnds` state a round notifies exactly one departure after a hard error and none otherwise |
| DhtTransfer.ErrorPaused | source/de/anomic/plasma/plasmaDHTTransfer.java:184-213 | the error message followed by the pause of `ErrorWait`; `TransferStepGoesOn` states what a continuing round has done |
| DhtTransfer.TransferStep | source/de/anomic/plasma/plasmaDHTTransfer.java:138-213 | a round of the outer loop that does not end the upload has raised the retry counter by one, to at most `maxRetry` |
| DhtTransfer.ReconnectStep | source/de/anomic/plasma/plasmaDHTTransfer.java:222-241 | a failed ping that does not end the upload raises the retry counter to at most `maxRetry`; a successful one resumes with the counter unchanged |
| DhtTransfer.Outer | source/de/anomic/plasma/plasmaDHTTransfer.java:138-243 | uploadIndex's outer loop from a state and retry count; `OuterOutcome` states how it ends |
| DhtTransfer.Reconnect | source/de/anomic/plasma/plasmaDHTTransfer.java:216-241 | the reconnect loop from a state and retry count; `ReconnectOutcome` states how it ends |
| DhtTransfer.TransferStepEnds | source/de/anomic/plasma/plasmaDHTTransfer.java:140-210 | an outer round that ends the upload ends it settled (COMPLETE, FAILED or INTERRUPTED with the matching message) without pinging; it notifies one departure when it fails on the retry limit after a hard error (the notification at line 197 precedes the return at 206-209) and none otherwise |
| DhtTransfer.TransferStepGoesOn | source/de/anomic/plasma/plasmaDHTTransfer.java:179-216 | an outer round that goes on made one transfer call, and it reconnects exactly after an error other than "busy"; a reconnecting round notified exactly one peer departure, a retrying round none and no ping either |
| DhtTransfer.ReconnectStepFacts | source/de/anomic/plasma/plasmaDHTTransfer.java:222-241 | a reconnect round that ends the upload ends it settled; one that goes on makes no transfer call |
| DhtTransfer.OuterOutcome | source/de/anomic/plasma/plasmaDHTTransfer.java:138-243 | from any state the loops terminate with a bounded number of transfer calls, departures only after hard errors, and a settled end |
| DhtTransfer.ReconnectOutcome | source/de/anomic/plasma/plasmaDHTTransfer.java:216-241 | the same for a run that starts in the reconnect loop |
| DhtTransfer.OuterWithoutHardErrors | source/de/anomic/plasma/plasmaDHTTransfer.java:186-216 | without a hard error among its replies the outer loop never pings and never reconnects |
| DhtTransfer.Upload | source/de/anomic/plasma/plasmaDHTTransfer.java:129-244 | uploadIndex: RUNNING, then the outer loop with no retries; `UploadOutcome` states how it ends |
| DhtTransfer.UploadOutcome | source/de/anomic/plasma/plasmaDHTTransfer.java:129-244 | an upload makes at most `maxRetry` + 1 transfer calls and ends COMPLETE after a successful last reply (payload size kept), FAILED with the retry-limit message, INTERRUPTED with "aborted", or RUNNING after the reconnect loop gave up; a stop through `stopIt` never leaves it RUNNING or FAILED, and `StopEndsLoops` states that once the stop flag is set the upload ends at the next check with no further transfer call or ping |
| DhtTransfer.BusyRepliesNeverReconnect | source/de/anomic/plasma/plasmaDHTTransfer.java:186-192 | with only "busy" replies the worker never notifies a departure and never pings |
| DhtTransfer.StopEndsLoops | source/de/anomic/plasma/plasmaDHTTransfer.java:138-225 | once a stop has been seen, both the outer and the reconnect loop end at their next `isAborted` check (lines 140 and 224), each followed by a return: INTERRUPTED and "aborted", with no transfer call and no ping |
| DhtTransfer.StopBeforeStart | source/de/anomic/plasma/plasmaDHTTransfer.java:135-140 | a stop before the upload starts ends it at the first check, INTERRUPTED, with no transfer call |
| DhtTransfer.Transfer.constructor | source/de/anomic/plasma/plasmaDHTTransfer.java:44-82 | a new worker has no status, an empty message, no stop, DISTRIBUTION mode and the given retry limit |
| DhtTransfer.Transfer.SetTransferMode | source/de/anomic/plasma/plasmaDHTTransfer.java:84-86 | only the mode changes |
| DhtTransfer.Transfer.StopIt | source/de/anomic/plasma/plasmaDHTTransfer.java:105-107 | only the stop flag is set |
| DhtTransfer.Transfer.GetPayloadSize | source/de/anomic/plasma/plasmaDHTTransfer.java:113-115 | the payload size field |
| DhtTransfer.Transfer.GetStatus | source/de/anomic/plasma/plasmaDHTTransfer.java:117-119 | the status field |
| DhtTransfer.Transfer.GetStatusMessage | source/de/anomic/plasma/plasmaDHTTransfer.java:121-123 | the status message field |
| DhtTransfer.Transfer.IsAborted | source/de/anomic/plasma/plasmaDHTTransfer.java:96-103 | the new state is `Check` of the old, and the answer is whether a stop is now seen |
| DhtTransfer.Transfer.Pause | source/de/anomic/plasma/plasmaDHTTransfer.java:260-269 | the loop of checks and one-second sleeps plus the rest ends in `Paused` of the old state |
| DhtTransfer.Transfer.UploadIndex | source/de/anomic/plasma/plasmaDHTTransfer.java:129-244 | the new state is `Upload` of the old, and so has every property of `UploadOutcome`; by `StopEndsLoops` a stop seen anywhere in the run, in a pause or at a check, ends it at the next check with no further transfer call or ping |
| DhtTransfer.Transfer.TransferRound | source/de/anomic/plasma/plasmaDHTTransfer.java:138-213 | one round of the outer loop ends, retries or reconnects exactly as `TransferStep` says |
| DhtTransfer.Transfer.Deliver | source/de/anomic/plasma/plasmaDHTTransfer.java:146-176 | after a successful reply: the payload size, the message or the FLUSH-mode pause, then COMPLETE, as `Delivered` says |
| DhtTransfer.Transfer.AfterErrorReply | source/de/anomic/plasma/plasmaDHTTransfer.java:183-213 | after an error reply the round ends, FAILED, iff the retry counter passed `maxRetry`; otherwise it pauses and reconnects iff the error was not "busy" |
| DhtTransfer.Transfer.ReconnectLoop | source/de/anomic/plasma/plasmaDHTTransfer.java:216-241 | the ping loop either ends the upload as `Reconnect` says, or resumes the outer loop with a retry count within the limit |
| DhtTransfer.Transfer.ReconnectRound | source/de/anomic/plasma/plasmaDHTTransfer.java:222-236 | one ping round ends, retries or resumes exactly as `ReconnectStep` says |
| DhtTransfer.Transfer.AfterFailedPing | source/de/anomic/plasma/plasmaDHTTransfer.java:229-235 | after a failed ping the upload ends iff the retry counter passed `maxRetry`; otherwise it pauses `retry` × 10000 ms |

## Left out

- Threads, the worker pool, `job()`, the `Worker` class and the read/write semaphores are not
  modelled. The queue is single-threaded, and a `waitForMessage` on an empty queue returns
  `Blocked` instead of waiting.
- Disk I/O is not modelled. The kelondro tree is a map, and its node iterator is a sequence of
  steps (`Disk`). The IOException path that recreates the file is the empty store. The iterator
  is assumed to yield every stored key exactly once (`WellFormed`, which the `StackQueue`
  constructor requires); a null node standing for a stored record would leave that record in
  the store with no queue entry, and the model does not capture it.
  `close()` is not modelled.
- `plasmaURL.urlHash`, the base64 long codec (`kelondroBase64Order.enhancedCoder`), the
  `bitfield` byte layout and `String.getBytes` are not part of this model. A stored record (`Row`)
  holds the long values and flag bits those codecs would encode. Both overloads of `urlHash`
  are parameters: the one on a parsed URL (line 316) always gives a hash, and the one on a
  string (lines 245, 397 and 400) may give null (`None`), for instance for a malformed URL.
  Which strings it rejects is not part of this model.
- `plasmaURL.dummyHash`, `urlHandleLength` and `urlFlagLength` are parameters, because their
  values are not part of this model.
- Thread interrupts are not modelled; `io.stopRequested` stands for `stopIt` only. The
  `Thread.currentThread().isInterrupted()` test of `isAborted` (line 97) and the
  `InterruptedException` of `Thread.sleep` (lines 266 and 268) have no counterpart.
- Paused (`DhtTransfer.Paused`, and `DhtTransfer.Transfer.Pause`): an interrupt during one of the
  `Thread.sleep` calls (lines 266 and 268) throws `InterruptedException` out of `pause` and skips
  the rest of it; the model's pause always finishes. `isInterrupted()` does not clear the flag, so
  once the loop has seen an interrupt, the remainder sleep at line 268 throws whenever the length
  is not a multiple of 1000. The contract "a stop seen sets INTERRUPTED" holds for `stopIt` only.
- UploadOutcome (`DhtTransfer.UploadOutcome`, and `Upload`, `Delivered`, `Check`,
  `Transfer.UploadIndex`): an interrupt during a sleep (the pauses at lines 166, 213 and 234) ends
  `uploadIndex` at once by the exception, leaving the status RUNNING. In FLUSH mode an interrupt
  seen inside the busy-time pause at line 166 sets INTERRUPTED and then, when the remainder sleep
  throws, COMPLETE at line 173 never runs, so the status stays INTERRUPTED after a successful
  transfer. "A stop never leaves it RUNNING", and the COMPLETE outcome after a successful last
  reply, hold for `stopIt` only.
- The transfer time (`transferTime`, `getTransferTime`) depends on the clock and is not modelled.
  The same holds for the log output and `getSeed`.
- `DhtTransfer.Delivered` takes the reply's `payloadSize` as present. The NullPointerException the
  source throws for a successful reply without one is not modelled.
- `stackCrawlMessage.toString` only formats text and is not modelled.
- `dequeue` with a null profile handle is an IllegalStateException. The model does not reproduce
  what the profile database does for a null key; it treats it as a handle that is not found.
- JavaText.Quot: long division rounding toward zero carries no contract of its own. Its use in
  the store is covered by `CrawlMessage.DayStart` and `CrawlMessage.DayRoundTrip`.
- JavaText.ParseInt: only radix 10 is modelled, the only radix the core uses. A leading '+' is rejected, as by the Java 5 and 6 libraries the source was written for; from Java 7 on it is accepted. Only the ASCII digits '0' to '9' are accepted (`DigitOf`), whereas `Character.digit` accepts every Unicode decimal digit: a pause of "١٢" (Arabic-Indic digits) is 12 ms in the source but reads as malformed, and so as 5000 ms, in `BusyTime`.
- CrawlMessage.Decode: reads the handle in hex, the corrected reader of the first finding below, where the source reads it in decimal (`DecodeAsWritten`). The two agree for handles 0 to 9 (`DecodeAgreesAsWritten`), and the source only ever builds handle 0, so the difference is latent.
- WaitForMessage (CrawlQueue.StackQueue.WaitForMessage, through CrawlQueue.Receive): rebuilds the message with `Decode`, not the decimal reader as written; see the line above.
- AddThenWait (CrawlQueue.AddThenWait): states that the message reads back for every int handle, which holds for the hex reader; with the reader as written it holds for handles 0 to 9 only (`HandleSurvivesAsWrittenIff`), which include the only handle the source builds.
- CrawlMessage.StoreRoundTrip: assumes text fields survive being written with `String.getBytes()` (the platform's default charset) and read with `new String(…, "UTF-8")`. That holds for ASCII text, or when the default charset is UTF-8; otherwise non-ASCII characters in the URL, name, initiator or profile handle can come back changed. Character encoding is not modelled.
- CrawlQueue.StackQueue.constructor: with a store that faults during the replay it follows the
  corrected reset (`Restore`). The code as written is `RestoreAsWritten`; see Findings.

## Findings

| source | as written | input that shows it | evidently intended | confidence | as-written member | corrected member |
|---|---|---|---|---|---|---|
| source/de/anomic/plasma/plasmaCrawlStacker.java:430 | the handle is written by `normalizeHandle` in hexadecimal (lines 506-510) but read back with `Integer.parseInt` in decimal | a message with handle 16 would be stored as "…10" and read back with handle 10, and handle 10 stored as "…a" could not be read (IllegalStateException); the handle field is private and only ever set to 0 (line 408) or from the record (line 430), so the defect is latent until another handle is set | the reader parses the handle in radix 16, so every handle reads back as written | not executed | CrawlMessage.DecodeHandleAsWritten (HandleMisreadAsWritten, HandleRejectedAsWritten, HandleSurvivesAsWrittenIff) | CrawlMessage.DecodeHandle (HandleRoundTrip, StoreRoundTrip) |
| source/de/anomic/plasma/plasmaCrawlStacker.java:556-564 | on a kelondroException during the replay, the store is recreated empty but the hashes already replayed stay in the hash list | a store file whose iterator yields one key and then faults: the queue lists that hash with no record, and the next `waitForMessage` builds a message from a null record (NullPointerException) | the reset clears the hash list together with the store, so the queue starts empty and consistent | not executed | CrawlQueue.RestoreAsWritten (RestoreAsWrittenLeavesDanglingHash) | CrawlQueue.Restore (RestoreIsConsistent) |

=== FILE: crawl_admission.dfy ===
/**
 * plasmaCrawlStacker.stackCrawl: the admission filter a candidate URL passes before it is
 * put on the crawl frontier (noticeURL), and the choice of the frontier stack it goes on.
 *
 * Every lookup stackCrawl makes into the rest of the peer (URL parsing, DNS, the blacklist,
 * the profile's filter regex, the CGI and POST tests, the URL databases, robots.txt, the
 * URL hash, the own seed) is a field of Environment; each is a pure function of its
 * arguments here, so the order of the checks is what decides the verdict.
 */
module CrawlAdmission {
  import opened Util

  /** What httpc.dnsResolve tells about a host. */
  datatype Address = Address(siteLocal: bool, loopback: bool)

  /** The parts of plasmaCrawlProfile.entry that stackCrawl reads. */
  datatype Profile = Profile(handle: string, generalFilter: string, generalDepth: int,
                             remoteIndexing: bool, crawlingQ: bool)

  /** The parts of the own seed (yacyCore.seedDB.mySeed) that stackCrawl reads. */
  datatype Seed = Seed(hash: string, senior: bool, principal: bool)

  /** plasmaCrawlNURL's stack types a new frontier entry can be put on. */
  datatype StackType = Limit | Core | Remote

  datatype Environment = Environment(
    wellFormed: string -> bool,                 // new URL(s) does not throw MalformedURLException
    resolve: string -> Option<Address>,         // dnsResolve of the URL's host; None is an unknown host
    blacklisted: string -> bool,                // urlBlacklist.isListed(lower-case host, path)
    matches: (string, string) -> bool,          // String.matches(regex)
    isCGI: string -> bool,
    isPOST: string -> bool,
    urlHash: string -> string,                  // plasmaURL.urlHash(URL) of a parsed URL
    urlHashOfText: string -> Option<string>,    // plasmaURL.urlHash(String); None is null
    registeredIn: string -> Option<string>,     // urlPool.exists(url hash): the database holding it
    robotsDisallowed: string -> bool,
    dummyHash: string,                          // plasmaURL.dummyHash
    mySeed: Seed)

  /** The arguments of stackCrawl; None is a null reference. */
  datatype Request = Request(url: Option<string>, referrer: Option<string>, initiator: Option<string>,
                             name: Option<string>, loadDate: Option<int>, depth: int,
                             profile: Option<Profile>)

  /** The arguments of the one noticeURL.newEntry call an admitted URL makes. */
  datatype NoticeEntry = NoticeEntry(initiator: string, url: string, loadDate: Option<int>,
                                     referrerHash: Option<string>, name: Option<string>,
                                     profileHandle: Option<string>, depth: int, anchors: int,
                                     forkfactor: int, stack: StackType)

  /** stackCrawl's outcome: a reason string, or null after exactly one frontier insert. */
  datatype Verdict = Denied(reason: string) | Admitted(entry: NoticeEntry)

  /** The initiator stackCrawl works with: a null or empty initiator is replaced by dummyHash. */
  function EffectiveInitiator(initiator: Option<string>, dummyHash: string): (h: string)
    ensures initiator.None? || initiator.value == [] ==> h == dummyHash
    ensures initiator.Some? && initiator.value != [] ==> h == initiator.value
  {
    if initiator.None? || |initiator.value| == 0 then dummyHash else initiator.value
  }

  /** The URL may be crawled by this peer: it came from the own proxy or the own seed. */
  predicate IsLocal(initiator: string, env: Environment) {
    initiator == env.dummyHash || initiator == env.mySeed.hash
  }

  /** The URL may be handed to other peers: a leaf of an own crawl that allows remote indexing, on a qualified peer. */
  predicate IsGlobal(initiator: string, depth: int, profile: Option<Profile>, env: Environment) {
    && profile.Some?
    && profile.value.remoteIndexing
    && depth == profile.value.generalDepth
    && initiator == env.mySeed.hash
    && (env.mySeed.senior || env.mySeed.principal)
  }

  /** The stack a new entry goes on. */
  function StackFor(global: bool, local: bool): (t: StackType)
    ensures t == Limit <==> global
    ensures t == Core <==> !global && local
    ensures t == Remote <==> !global && !local
  {
    if global then Limit else if local then Core else Remote
  }

  /** The frontier entry of an admitted URL u. */
  function EntryFor(req: Request, u: string, env: Environment): NoticeEntry {
    var initiator := EffectiveInitiator(req.initiator, env.dummyHash);
    NoticeEntry(initiator, u, req.loadDate,
                if req.referrer.None? then None else env.urlHashOfText(req.referrer.value),
                req.name,
                if req.profile.None? then None else Some(req.profile.value.handle),
                req.depth, 0, 0,
                StackFor(IsGlobal(initiator, req.depth, req.profile, env), IsLocal(initiator, env)))
  }

  /** stackCrawl: the checks in the order the source makes them; the first that fails decides. */
  function Admit(req: Request, env: Environment): Verdict {
    if req.url.None? then Denied("denied_(url_null)")
    else
      var u := req.url.value;
      var address := env.resolve(u);
      if !env.wellFormed(u) then Denied("denied_(url_'" + u + "'_wrong)")
      else if address.None? then Denied("denied_(unknown_host)")
      else if address.value.siteLocal then Denied("denied_(private_ip_address)")
      else if address.value.loopback then Denied("denied_(loopback_ip_address)")
      else if env.blacklisted(u) then Denied("denied_(url_in_blacklist)")
      else if req.depth > 0 && req.profile.Some? && !env.matches(u, req.profile.value.generalFilter) then
        Denied("denied_(does_not_match_filter)")
      else if env.isCGI(u) then Denied("denied_(cgi_url)")
      else if env.isPOST(u) && req.profile.Some? && !req.profile.value.crawlingQ then Denied("denied_(post_url)")
      else if env.registeredIn(env.urlHash(u)).Some? then
        Denied("double_(registered_in_" + env.registeredIn(env.urlHash(u)).value + ")")
      else if env.robotsDisallowed(u) then Denied("denied_(robots.txt)")
      else Admitted(EntryFor(req, u, env))
  }

  /** One admission check: whether it rejects the URL, and the reason it gives then. */
  datatype Check = Check(fails: bool, reason: string)

  /** The admission checks as a list, in the order stackCrawl makes them. */
  function Checks(req: Request, env: Environment): (cs: seq<Check>)
    ensures req.url.None? ==> |cs| == 1
    ensures req.url.Some? ==> |cs| == 10
  {
    if req.url.None? then [Check(true, "denied_(url_null)")]
    else
      var u := req.url.value;
      var address := env.resolve(u);
      var db := env.registeredIn(env.urlHash(u));
      [ Check(!env.wellFormed(u), "denied_(url_'" + u + "'_wrong)"),
        Check(address.None?, "denied_(unknown_host)"),
        Check(address.Some? && address.value.siteLocal, "denied_(private_ip_address)"),
        Check(address.Some? && address.value.loopback, "denied_(loopback_ip_address)"),
        Check(env.blacklisted(u), "denied_(url_in_blacklist)"),
        Check(req.depth > 0 && req.profile.Some? && !env.matches(u, req.profile.value.generalFilter),
              "denied_(does_not_match_filter)"),
        Check(env.isCGI(u), "denied_(cgi_url)"),
        Check(env.isPOST(u) && req.profile.Some? && !req.profile.value.crawlingQ, "denied_(post_url)"),
        Check(db.Some?, "double_(registered_in_" + (if db.Some? then db.value else "") + ")"),
        Check(env.robotsDisallowed(u), "denied_(robots.txt)") ]
  }

  /** The reason of the first failing check, or None when every check passes. */
  function FirstFailure(cs: seq<Check>): Option<string> {
    if cs == [] then None
    else if cs[0].fails then Some(cs[0].reason)
    else FirstFailure(cs[1..])
  }

  /** The first failing check's reason is reported, and nothing exactly when no check fails. */
  lemma {:induction false} FirstFailureSpec(cs: seq<Check>)
    ensures var r := FirstFailure(cs);
      && (r.None? <==> forall i :: 0 <= i < |cs| ==> !cs[i].fails)
      && (r.Some? ==> exists i :: 0 <= i < |cs| && cs[i].fails && cs[i].reason == r.value &&
                                  forall j :: 0 <= j < i ==> !cs[j].fails)
  {
    if cs != [] && !cs[0].fails {
      FirstFailureSpec(cs[1..]);
      assert forall i :: 1 <= i < |cs| ==> cs[i] == cs[1..][i - 1];
      var r := FirstFailure(cs[1..]);
      if r.Some? {
        var k :| 0 <= k < |cs[1..]| && cs[1..][k].fails && cs[1..][k].reason == r.value &&
                 forall j :: 0 <= j < k ==> !cs[1..][j].fails;
        assert cs[k + 1].fails && cs[k + 1].reason == r.value;
      }
    }
  }

  /** The check at i decides when it fails and every check before it passes. */
  lemma {:induction false} FirstFailureAt(cs: seq<Check>, i: nat)
    requires i < |cs| && cs[i].fails
    requires forall j :: 0 <= j < i ==> !cs[j].fails
    ensures FirstFailure(cs) == Some(cs[i].reason)
  {
    if i > 0 {
      assert forall j :: 0 <= j < i - 1 ==> cs[1..][j] == cs[j + 1];
      FirstFailureAt(cs[1..], i - 1);
    }
  }

  /**
   * stackCrawl is the short-circuiting filter over its check list: it is denied with the
   * reason of the first check that fails, and admitted, with its one frontier entry,
   * exactly when every check passes.
   */
  lemma AdmitIsFirstFailure(req: Request, env: Environment)
    ensures var f := FirstFailure(Checks(req, env));
      Admit(req, env) == if f.Some? then Denied(f.value) else Admitted(EntryFor(req, req.url.value, env))
  {
    var cs := Checks(req, env);
    if req.url.None? {
      FirstFailureAt(cs, 0);
    } else if cs[0].fails || cs[1].fails || cs[2].fails || cs[3].fails || cs[4].fails {
      EarlyDenial(req, env);
    } else {
      LateVerdict(req, env);
    }
  }

  /** A URL that fails one of the first five checks (form, host, address, blacklist) is denied for the first of them. */
  lemma EarlyDenial(req: Request, env: Environment)
    requires req.url.Some?
    requires var cs := Checks(req, env);
      cs[0].fails || cs[1].fails || cs[2].fails || cs[3].fails || cs[4].fails
    ensures var f := FirstFailure(Checks(req, env));
      f.Some? && Admit(req, env) == Denied(f.value)
  {
    var cs := Checks(req, env);
    if cs[0].fails { FirstFailureAt(cs, 0); }
    else if cs[1].fails { FirstFailureAt(cs, 1); }
    else if cs[2].fails { FirstFailureAt(cs, 2); }
    else if cs[3].fails { FirstFailureAt(cs, 3); }
    else { FirstFailureAt(cs, 4); }
  }

  /** A URL that passes the first five checks gets the verdict of the remaining five. */
  lemma LateVerdict(req: Request, env: Environment)
    requires req.url.Some?
    requires var cs := Checks(req, env);
      !cs[0].fails && !cs[1].fails && !cs[2].fails && !cs[3].fails && !cs[4].fails
    ensures var f := FirstFailure(Checks(req, env));
      Admit(req, env) == if f.Some? then Denied(f.value) else Admitted(EntryFor(req, req.url.value, env))
  {
    var cs := Checks(req, env);
    if cs[5].fails { FirstFailureAt(cs, 5); }
    else if cs[6].fails { FirstFailureAt(cs, 6); }
    else if cs[7].fails { FirstFailureAt(cs, 7); }
    else if cs[8].fails { FirstFailureAt(cs, 8); }
    else if cs[9].fails { FirstFailureAt(cs, 9); }
    else { FirstFailureSpec(cs); }
  }

  /** A null URL is denied before any lookup: the verdict does not depend on the environment at all. */
  lemma NullUrlNeedsNoLookup(req: Request, env: Environment, other: Environment)
    requires req.url.None?
    ensures Admit(req, env) == Admit(req, other) == Denied("denied_(url_null)")
  {
  }

  /** A host that is both site-local and loopback is reported as a private address: that test comes first. */
  lemma SiteLocalBeforeLoopback(req: Request, env: Environment)
    requires req.url.Some? && env.wellFormed(req.url.value)
    requires env.resolve(req.url.value) == Some(Address(true, true))
    ensures Admit(req, env) == Denied("denied_(private_ip_address)")
  {
  }

  /** The filter regex is consulted only for a positive depth and a non-null profile. */
  lemma FilterNeedsDepthAndProfile(req: Request, env: Environment, matches: (string, string) -> bool)
    requires req.depth <= 0 || req.profile.None?
    ensures Admit(req, env) == Admit(req, env.(matches := matches))
  {
  }

  /** The POST test is consulted only for a non-null profile that does not allow query URLs. */
  lemma PostNeedsRestrictiveProfile(req: Request, env: Environment, isPOST: string -> bool)
    requires req.profile.None? || req.profile.value.crawlingQ
    ensures Admit(req, env) == Admit(req, env.(isPOST := isPOST))
  {
  }

  /**
   * An admitted URL whose initiator was null or empty is always local: it goes on the
   * limit or the core stack, never on the remote one.
   */
  lemma OwnUrlsAreNeverRemote(req: Request, env: Environment)
    requires req.initiator.None? || req.initiator.value == []
    requires Admit(req, env).Admitted?
    ensures Admit(req, env).entry.initiator == env.dummyHash
    ensures Admit(req, env).entry.stack != Remote
  {
  }

  /**
   * The stack of an admitted URL: the limit stack iff the URL is global, else the core
   * stack iff it is local, else the remote stack; and the entry carries the URL itself,
   * the effective initiator and the default anchors and fork factor of 0.
   */
  lemma AdmittedEntry(req: Request, env: Environment)
    requires Admit(req, env).Admitted?
    ensures var e := Admit(req, env).entry;
      var initiator := EffectiveInitiator(req.initiator, env.dummyHash);
      var global := IsGlobal(initiator, req.depth, req.profile, env);
      var local := IsLocal(initiator, env);
      && req.url == Some(e.url)
      && e.initiator == initiator
      && (e.stack == Limit <==> global)
      && (e.stack == Core <==> !global && local)
      && (e.stack == Remote <==> !global && !local)
      && e.anchors == 0 && e.forkfactor == 0
      && e.profileHandle == (if req.profile.None? then None else Some(req.profile.value.handle))
      && (req.referrer.None? ==> e.referrerHash.None?)
  {
  }
}

=== FILE: crawl_message.dfy ===
/**
 * stackCrawlMessage: one candidate URL waiting in the crawl stacker's queue, the
 * record it is stored as (one entry of byte[][] per field), and the reader that
 * rebuilds a message from that record.
 *
 * plasmaURL.urlHash, the base64 long codec and the bitfield byte layout are not part
 * of this model: a hash is supplied by the caller, a Row holds the long values and
 * flag bits that those codecs would encode, and plasmaURL's dummyHash and
 * urlHandleLength are parameters.
 */
module CrawlMessage {
  import opened Util
  import opened JavaText

  const MillisPerDay: int := 86400000

  datatype Message = Message(
    urlHash: string,
    initiator: Option<string>,      // null or "" when the URL came from the own peer
    url: string,
    referrerHash: string,
    name: string,                   // anchor text
    loadDate: int,                  // milliseconds since the epoch
    profileHandle: Option<string>,
    depth: int,
    anchors: int,
    forkfactor: int,
    flags: seq<bool>,
    handle: int)
  {
    /** The initiator as callers see it: null and the empty string both read as null. */
    function InitiatorHash(): (r: Option<string>)
      ensures r.None? <==> initiator.None? || initiator.value == []
      ensures r.Some? ==> r == initiator
    {
      if initiator.None? || |initiator.value| == 0 then None else initiator
    }
  }

  /** The stored form of a message: field i is entry i of getBytes' byte[][]; None is a null entry. */
  datatype Row = Row(
    key: string,
    initiator: string,
    url: string,
    referrer: Option<string>,
    name: Option<string>,
    loadDay: int,
    profile: Option<string>,
    depth: int,
    anchors: int,
    forkfactor: int,
    flags: seq<bool>,
    handle: string)

  /**
   * The first constructor: the url hash and referrer hash come from plasmaURL.urlHash (given
   * here as urlHashOf), a null referrer becomes dummyHash, a null name "", a null load date
   * the current time, the flags a cleared bitfield of flagLength bits and the handle 0.
   * None is a message whose url hash or referrer hash is null: getBytes dereferences both,
   * so such a message can never be stored.
   */
  function NewMessage(urlHashOf: string -> Option<string>, dummyHash: string, flagLength: nat, now: int,
                      initiator: Option<string>, url: string, referrerUrl: Option<string>,
                      name: Option<string>, loadDate: Option<int>, profileHandle: Option<string>,
                      depth: int, anchors: int, forkfactor: int): (r: Option<Message>)
    ensures r.Some? <==> urlHashOf(url).Some? && (referrerUrl.None? || urlHashOf(referrerUrl.value).Some?)
    ensures r.Some? ==> && Some(r.value.urlHash) == urlHashOf(url) && r.value.url == url
                        && r.value.initiator == initiator && r.value.handle == 0
                        && (referrerUrl.None? ==> r.value.referrerHash == dummyHash)
                        && (referrerUrl.Some? ==> Some(r.value.referrerHash) == urlHashOf(referrerUrl.value))
  {
    var referrerHash := if referrerUrl.None? then Some(dummyHash) else urlHashOf(referrerUrl.value);
    if urlHashOf(url).None? || referrerHash.None? then None
    else
      Some(Message(urlHashOf(url).value, initiator, url, referrerHash.value,
                   name.GetOr(""), loadDate.GetOr(now), profileHandle, depth, anchors, forkfactor,
                   seq(flagLength, _ => false), 0))
  }

  /** The load date rounded toward zero to a whole day, which is all a stored record keeps of it. */
  function DayStart(ms: int): (r: int)
    ensures 0 <= ms ==> 0 <= r <= ms < r + MillisPerDay
    ensures ms < 0 ==> r - MillisPerDay < ms <= r <= 0
    ensures r % MillisPerDay == 0
  {
    Quot(ms, MillisPerDay) * MillisPerDay
  }

  /** A day count survives being turned into milliseconds and divided back. */
  lemma DayRoundTrip(day: int)
    ensures Quot(MillisPerDay * day, MillisPerDay) == day
  {
    if day < 0 {
      assert -(MillisPerDay * day) == MillisPerDay * -day;
    }
  }

  /** normalizeHandle's result: Integer.toHexString(h) left-padded with '0' to at least width characters. */
  function PaddedHex(h: int, width: nat): (d: string)
    requires IsInt(h)
    ensures |d| >= width && |d| >= 1
  {
    var hex := ToHexString(h);
    Zeros(if |hex| < width then width - |hex| else 0) + hex
  }

  /** The padded handle is a hex digit string holding the handle's 32 bits. */
  lemma PaddedHexValue(h: int, width: nat)
    requires IsInt(h)
    ensures AllDigits(PaddedHex(h, width), 16) && Value(PaddedHex(h, width), 16) == Unsigned(h)
  {
    var hex := ToHexString(h);
    ValueLeadingZeros(if |hex| < width then width - |hex| else 0, hex, 16);
  }

  /** normalizeHandle: Integer.toHexString, then the padding loop. */
  method NormalizeHandle(h: int, width: nat) returns (d: string)
    requires IsInt(h)
    ensures d == PaddedHex(h, width)
  {
    var hex := ToHexString(h);
    d := PadWithZeros(hex, width);
  }

  /** normalizeHandle's loop: prepend '0' while the string is shorter than width. */
  method PadWithZeros(hex: string, width: nat) returns (d: string)
    ensures d == Zeros(if |hex| < width then width - |hex| else 0) + hex
  {
    d := hex;
    while |d| < width
      invariant |hex| <= |d| && (|d| > |hex| ==> |d| <= width)
      invariant d == Zeros(|d| - |hex|) + hex
      decreases width - |d|
    {
      assert "0" + Zeros(|d| - |hex|) == Zeros(|d| + 1 - |hex|);
      d := "0" + d;
    }
  }

  /** getBytes: the record written to the queue's store; a null initiator is written as "". */
  function GetBytes(m: Message, handleWidth: nat): Row
    requires IsInt(m.handle)
  {
    Row(m.urlHash,
        if m.initiator.None? then "" else m.initiator.value,
        m.url, Some(m.referrerHash), Some(m.name),
        Quot(m.loadDate, MillisPerDay),
        m.profileHandle, m.depth, m.anchors, m.forkfactor, m.flags,
        PaddedHex(m.handle, handleWidth))
  }

  /** The handle field as the reader reads it: Integer.parseInt in radix 10. */
  function DecodeHandleAsWritten(s: string): Option<int> {
    ParseInt(Some(s))
  }

  /** The handle field read as what normalizeHandle writes: hex digits holding an int's 32 bits. */
  function DecodeHandle(s: string): (h: Option<int>)
    ensures h.Some? ==> IsInt(h.value)
  {
    if s == [] || !AllDigits(s, 16) then None
    else
      var u := Value(s, 16);
      if u >= TwoTo32 then None else Some(if u > IntMax then u - TwoTo32 else u)
  }

  /**
   * The second constructor: rebuild a message from its key and stored record. Url, name and
   * profile handle are trimmed, a null referrer becomes dummyHash, a null name "", the day
   * count becomes midnight of that day; a handle that does not read back throws
   * IllegalStateException.
   */
  function Rebuild(key: string, row: Row, dummyHash: string, handle: Option<int>): Result<Message> {
    match handle
    case None => Err("IllegalStateException")
    case Some(h) =>
      Ok(Message(key, Some(row.initiator), Trim(row.url), row.referrer.GetOr(dummyHash),
                 if row.name.None? then "" else Trim(row.name.value),
                 MillisPerDay * row.loadDay,
                 if row.profile.None? then None else Some(Trim(row.profile.value)),
                 row.depth, row.anchors, row.forkfactor, row.flags, h))
  }

  /** The second constructor as written: the handle is read in decimal. */
  function DecodeAsWritten(key: string, row: Row, dummyHash: string): Result<Message> {
    Rebuild(key, row, dummyHash, DecodeHandleAsWritten(row.handle))
  }

  /** The second constructor with the handle read in hex, as normalizeHandle writes it. */
  function Decode(key: string, row: Row, dummyHash: string): Result<Message> {
    Rebuild(key, row, dummyHash, DecodeHandle(row.handle))
  }

  /** Every int handle survives normalizeHandle followed by the hex reader. */
  lemma HandleRoundTrip(h: int, width: nat)
    requires IsInt(h)
    ensures DecodeHandle(PaddedHex(h, width)) == Some(h)
  {
    PaddedHexValue(h, width);
  }

  /** The reader as written misreads hex handles: 16 is written "…10" and read back as ten. */
  lemma HandleMisreadAsWritten(width: nat)
    ensures DecodeHandleAsWritten(PaddedHex(16, width)) == Some(10)
  {
    HexOfSixteen();
    ParseLeadingZeros(if 2 < width then width - 2 else 0, "10");
    ParseTen();
  }

  /** The reader as written rejects hex handles with a letter digit: 10 is written "…a" and throws. */
  lemma HandleRejectedAsWritten(width: nat)
    ensures DecodeHandleAsWritten(PaddedHex(10, width)) == None
  {
    HexOfDigit(10);
    ParseLeadingZeros(if 1 < width then width - 1 else 0, [DigitChar(10)]);
    ParseRejectsNonDigit([DigitChar(10)], 0);
  }

  /** The reader as written does read back the handles 0 to 9, and the constructor only ever writes 0. */
  lemma SmallHandlesSurviveAsWritten(h: int, width: nat)
    requires 0 <= h <= 9
    ensures DecodeHandleAsWritten(PaddedHex(h, width)) == Some(h)
  {
    var k := if 1 < width then width - 1 else 0;
    HexOfDigit(h);
    assert PaddedHex(h, width) == Zeros(k) + [DigitChar(h)];
    ParseLeadingZeros(k, [DigitChar(h)]);
    ParseOneDigit(h);
  }

  /** The reader as written reads back exactly the handles 0 to 9, and misreads or rejects every other int. */
  lemma HandleSurvivesAsWrittenIff(h: int, width: nat)
    requires IsInt(h)
    ensures DecodeHandleAsWritten(PaddedHex(h, width)) == Some(h) <==> 0 <= h <= 9
  {
    if 0 <= h <= 9 {
      SmallHandlesSurviveAsWritten(h, width);
    } else {
      var s := PaddedHex(h, width);
      PaddedHexValue(h, width);
      assert 0 <= DigitOf(s[0]);
      if AllDigits(s, 10) {
        ParseUnsignedDigits(s);
        DecimalReadOfHex(s);
      } else {
        var i :| 0 <= i < |s| && !(0 <= DigitOf(s[i]) < 10);
        ParseRejectsNonDigit(s, i);
      }
    }
  }

  /**
   * For every handle the source can hold (the first constructor sets 0, and 0 to 9 read back
   * unchanged), the reader as written and the hex reader rebuild the same message.
   */
  lemma DecodeAgreesAsWritten(m: Message, handleWidth: nat, dummyHash: string)
    requires 0 <= m.handle <= 9
    ensures var row := GetBytes(m, handleWidth);
      DecodeAsWritten(m.urlHash, row, dummyHash) == Decode(m.urlHash, row, dummyHash)
  {
    SmallHandlesSurviveAsWritten(m.handle, handleWidth);
    HandleRoundTrip(m.handle, handleWidth);
  }

  /**
   * A message survives being stored and read back up to what the record keeps: a null
   * initiator comes back as "" (which still reads as null), url, name and profile handle
   * come back trimmed, the load date comes back as the start of its day, and everything
   * else comes back unchanged.
   */
  lemma StoreRoundTrip(m: Message, handleWidth: nat, dummyHash: string)
    requires IsInt(m.handle)
    ensures var r := Decode(m.urlHash, GetBytes(m, handleWidth), dummyHash);
      && r.Ok?
      && r.value.urlHash == m.urlHash
      && r.value.InitiatorHash() == m.InitiatorHash()
      && r.value.url == Trim(m.url)
      && r.value.referrerHash == m.referrerHash
      && r.value.name == Trim(m.name)
      && r.value.loadDate == DayStart(m.loadDate)
      && r.value.profileHandle == (if m.profileHandle.None? then None else Some(Trim(m.profileHandle.value)))
      && r.value.depth == m.depth && r.value.anchors == m.anchors && r.value.forkfactor == m.forkfactor
      && r.value.flags == m.flags && r.value.handle == m.handle
  {
    HandleRoundTrip(m.handle, handleWidth);
  }

  /** A message without an initiator (null or empty) reads back without one. */
  lemma OwnMessageStaysOwn(m: Message, handleWidth: nat, dummyHash: string)
    requires IsInt(m.handle) && m.InitiatorHash().None?
    ensures var d := Decode(m.urlHash, GetBytes(m, handleWidth), dummyHash);
      d.Ok? && d.value.InitiatorHash().None?
  {
    HandleRoundTrip(m.handle, handleWidth);
  }

  /** A message read back from the store is stored and read back unchanged. */
  lemma StoreRoundTripStable(m: Message, handleWidth: nat, dummyHash: string)
    requires IsInt(m.handle)
    ensures var r := Decode(m.urlHash, GetBytes(m, handleWidth), dummyHash);
      r.Ok? && Decode(m.urlHash, GetBytes(r.value, handleWidth), dummyHash) == r
  {
    StoreRoundTrip(m, handleWidth, dummyHash);
    var d := Decode(m.urlHash, GetBytes(m, handleWidth), dummyHash).value;
    StoreRoundTrip(d, handleWidth, dummyHash);
    DayRoundTrip(Quot(m.loadDate, MillisPerDay));
  }

  /** A freshly constructed message carries handle 0, so even the as-written reader reads its record back. */
  lemma NewMessageSurvivesStoreAsWritten(urlHashOf: string -> Option<string>, dummyHash: string, flagLength: nat,
                                         now: int, initiator: Option<string>, url: string,
                                         referrerUrl: Option<string>, name: Option<string>,
                                         loadDate: Option<int>, profileHandle: Option<string>,
                                         depth: int, anchors: int, forkfactor: int, handleWidth: nat)
    ensures var m := NewMessage(urlHashOf, dummyHash, flagLength, now, initiator, url, referrerUrl,
                                name, loadDate, profileHandle, depth, anchors, forkfactor);
      m.Some? ==> DecodeHandleAsWritten(GetBytes(m.value, handleWidth).handle) == Some(0)
  {
    SmallHandlesSurviveAsWritten(0, handleWidth);
  }
}

=== FILE: crawl_queue.dfy ===
/**
 * stackCrawlQueue: the de-duplicating FIFO in front of the crawl stacker. It pairs a list
 * of url hashes (urlEntryHashCache, in arrival order) with a keyed store of records
 * (urlEntryCache, a kelondroTree on disk), and the two must hold the same hashes.
 *
 * QueueState and the functions on it are the specification; the class StackQueue holds
 * the same two structures as fields and its methods are proved against those functions.
 * The semaphores and synchronized blocks are left out: the queue is modelled single-threaded,
 * and waiting on an empty queue is reported as Blocked.
 */
module CrawlQueue {
  import opened Util
  import opened JavaText
  import opened CrawlMessage

  /** The hash list and the store, as one value. */
  datatype QueueState = QueueState(order: seq<string>, store: map<string, Row>) {
    /** The invariant the queue keeps: the store's keys are exactly the listed hashes, each listed once. */
    ghost predicate Consistent() {
      NoDuplicates(order) && forall h :: h in store <==> h in order
    }
  }

  const Empty: QueueState := QueueState([], map[])

  /** addMessage: the record is always written under its hash; the hash is listed only if it was not stored before. */
  function Put(q: QueueState, row: Row): QueueState {
    QueueState(if row.key in q.store then q.order else q.order + [row.key], q.store[row.key := row])
  }

  /** What waitForMessage takes off the queue: nothing, or the first hash with the record removed under it (null if none). */
  datatype Pickup = Nothing | Picked(hash: string, row: Option<Row>)

  /** waitForMessage: the first (oldest) hash is removed from the list and its record from the store. */
  function Take(q: QueueState): (QueueState, Pickup) {
    if q.order == [] then (q, Nothing)
    else
      var h := q.order[0];
      (QueueState(q.order[1..], q.store - {h}), Picked(h, if h in q.store then Some(q.store[h]) else None))
  }

  /** The hashes a queue delivers when it is drained, in delivery order. */
  function Drain(q: QueueState): seq<string>
    decreases |q.order|
  {
    if q.order == [] then [] else [q.order[0]] + Drain(Take(q).0)
  }

  /** Several addMessage calls in a row. */
  function PutAll(q: QueueState, rows: seq<Row>): QueueState
    decreases |rows|
  {
    if rows == [] then q else PutAll(Put(q, rows[0]), rows[1..])
  }

  function KeysOf(rows: seq<Row>): (ks: seq<string>)
    ensures |ks| == |rows| && forall i :: 0 <= i < |rows| ==> ks[i] == rows[i].key
  {
    seq(|rows|, i requires 0 <= i < |rows| => rows[i].key)
  }

  /** Distinct hashes, listed once each, have as many elements as the set of them. */
  lemma {:induction false} CountMatches(order: seq<string>, keys: set<string>)
    requires NoDuplicates(order) && forall h :: h in keys <==> h in order
    ensures |keys| == |order|
  {
    if order != [] {
      var last := order[|order| - 1];
      var init := order[..|order| - 1];
      assert forall h :: h in keys - {last} <==> h in init by {
        forall h | h in init ensures h != last {
          var i :| 0 <= i < |init| && init[i] == h;
          assert order[i] == h;
        }
        forall h | h in keys - {last} ensures h in init {
          var i :| 0 <= i < |order| && order[i] == h;
          assert i != |order| - 1;
          assert init[i] == h;
        }
      }
      CountMatches(init, keys - {last});
    }
  }

  /** The list and the store of a consistent queue have the same size. */
  lemma SizeAgrees(q: QueueState)
    requires q.Consistent()
    ensures |q.order| == |q.store|
  {
    CountMatches(q.order, q.store.Keys);
  }

  /** addMessage keeps the queue consistent, and the size grows by one exactly when the hash is new. */
  lemma PutKeepsConsistent(q: QueueState, row: Row)
    requires q.Consistent()
    ensures Put(q, row).Consistent()
    ensures row.key in Put(q, row).store && Put(q, row).store[row.key] == row
    ensures |Put(q, row).order| == if row.key in q.store then |q.order| else |q.order| + 1
    ensures row.key in q.store ==> Put(q, row).order == q.order
  {
  }

  /** Adding the same record twice is the same as adding it once. */
  lemma PutTwice(q: QueueState, row: Row)
    ensures Put(Put(q, row), row) == Put(q, row)
  {
  }

  /** waitForMessage keeps the queue consistent and, on a non-empty queue, delivers the oldest hash with its record. */
  lemma TakeKeepsConsistent(q: QueueState)
    requires q.Consistent()
    ensures Take(q).0.Consistent()
    ensures q.order == [] <==> Take(q).1 == Nothing
    ensures q.order != [] ==> Take(q).1 == Picked(q.order[0], Some(q.store[q.order[0]]))
    ensures q.order != [] ==> |Take(q).0.order| == |q.order| - 1
  {
    if q.order != [] {
      var h := q.order[0];
      var r := Take(q).0;
      forall x ensures x in r.store <==> x in r.order {
        if x in r.order {
          var i :| 0 <= i < |r.order| && r.order[i] == x;
          assert q.order[i + 1] == x;
        }
        if x in q.order && x != h {
          var i :| 0 <= i < |q.order| && q.order[i] == x;
          assert r.order[i - 1] == x;
        }
      }
    }
  }

  /** A consistent queue is drained in list order: first come, first served. */
  lemma {:induction false} DrainIsOrder(q: QueueState)
    requires q.Consistent()
    ensures Drain(q) == q.order
    decreases |q.order|
  {
    if q.order != [] {
      TakeKeepsConsistent(q);
      DrainIsOrder(Take(q).0);
    }
  }

  /** Adding new records behind an existing queue appends their hashes, in order, to the list. */
  lemma {:induction false} PutAllAppends(q: QueueState, rows: seq<Row>)
    requires q.Consistent()
    requires NoDuplicates(KeysOf(rows))
    requires forall i :: 0 <= i < |rows| ==> rows[i].key !in q.store
    ensures PutAll(q, rows).Consistent()
    ensures PutAll(q, rows).order == q.order + KeysOf(rows)
    decreases |rows|
  {
    if rows != [] {
      var q1 := Put(q, rows[0]);
      PutKeepsConsistent(q, rows[0]);
      var rest := rows[1..];
      TailStillNew(q, rows);
      PutAllAppends(q1, rest);
      AppendFirstKey(q.order, rows);
    }
  }

  lemma AppendFirstKey(order: seq<string>, rows: seq<Row>)
    requires rows != []
    ensures (order + [rows[0].key]) + KeysOf(rows[1..]) == order + KeysOf(rows)
  {
    var ks, tail := KeysOf(rows), KeysOf(rows[1..]);
    assert forall i :: 0 <= i < |tail| ==> tail[i] == ks[i + 1];
    assert ks == [rows[0].key] + tail;
  }

  /** After the first of several new, distinct rows is put, the others are still new and distinct. */
  lemma TailStillNew(q: QueueState, rows: seq<Row>)
    requires rows != [] && NoDuplicates(KeysOf(rows))
    requires forall i :: 0 <= i < |rows| ==> rows[i].key !in q.store
    ensures NoDuplicates(KeysOf(rows[1..]))
    ensures forall i :: 0 <= i < |rows| - 1 ==> rows[1..][i].key !in Put(q, rows[0]).store
  {
    var rest := rows[1..];
    forall i | 0 <= i < |rest| ensures rest[i].key !in Put(q, rows[0]).store {
      assert rest[i] == rows[i + 1];
      assert KeysOf(rows)[i + 1] != KeysOf(rows)[0];
    }
    forall i, j | 0 <= i < j < |rest| ensures KeysOf(rest)[i] != KeysOf(rest)[j] {
      assert KeysOf(rows)[i + 1] != KeysOf(rows)[j + 1];
    }
  }

  /** Messages added to an empty queue come out in the order they were added. */
  lemma FifoDelivery(rows: seq<Row>)
    requires NoDuplicates(KeysOf(rows))
    ensures Drain(PutAll(Empty, rows)) == KeysOf(rows)
  {
    PutAllAppends(Empty, rows);
    DrainIsOrder(PutAll(Empty, rows));
  }

  /** One step of the key iterator over the store's nodes: a key, a null node, or a kelondroException. */
  datatype NodeStep = Node(key: string) | NullNode | Fault

  /**
   * The store file when the queue is opened: absent, present but not openable (IOException),
   * or present with its records and what its node iterator yields.
   */
  datatype Disk = Missing | Unreadable | Present(rows: map<string, Row>, nodes: seq<NodeStep>)

  /** The hashes the replay loop lists: the keys before the first fault, null nodes skipped. */
  function Replayed(nodes: seq<NodeStep>): seq<string>
    decreases |nodes|
  {
    if nodes == [] then []
    else match nodes[0]
      case Node(k) => [k] + Replayed(nodes[1..])
      case NullNode => Replayed(nodes[1..])
      case Fault => []
  }

  predicate Faults(nodes: seq<NodeStep>)
    decreases |nodes|
  {
    nodes != [] && (nodes[0].Fault? || Faults(nodes[1..]))
  }

  /** A store file whose iterator yields each stored key once, and all of them unless it faults. */
  ghost predicate WellFormed(disk: Disk) {
    disk.Present? ==>
      && NoDuplicates(Replayed(disk.nodes))
      && (forall h :: h in Replayed(disk.nodes) ==> h in disk.rows)
      && (!Faults(disk.nodes) ==> forall h :: h in disk.rows ==> h in Replayed(disk.nodes))
  }

  /**
   * The queue the constructor builds as written: an unreadable file is replaced by an empty
   * store, and a fault during the replay replaces the store by an empty one but keeps the
   * hashes already listed.
   */
  function RestoreAsWritten(disk: Disk): QueueState {
    match disk
    case Missing => Empty
    case Unreadable => Empty
    case Present(rows, nodes) => QueueState(Replayed(nodes), if Faults(nodes) then map[] else rows)
  }

  /** The constructor with the reset completed: a fault clears the hash list along with the store. */
  function Restore(disk: Disk): QueueState {
    match disk
    case Missing => Empty
    case Unreadable => Empty
    case Present(rows, nodes) => if Faults(nodes) then Empty else QueueState(Replayed(nodes), rows)
  }

  /** A hash replayed before a fault is left in the list with no record behind it. */
  lemma RestoreAsWrittenLeavesDanglingHash(row: Row)
    ensures var disk := Present(map[row.key := row], [Node(row.key), Fault]);
      && WellFormed(disk)
      && RestoreAsWritten(disk).order == [row.key]
      && RestoreAsWritten(disk).store == map[]
      && !RestoreAsWritten(disk).Consistent()
      && Take(RestoreAsWritten(disk)).1 == Picked(row.key, None)
  {
    var nodes := [Node(row.key), Fault];
    assert nodes[1..] == [Fault];
    assert Faults(nodes[1..]);
    assert Replayed(nodes) == [row.key];
    assert row.key in RestoreAsWritten(Present(map[row.key := row], nodes)).order;
  }

  /** The completed reset opens every well-formed store file as a consistent queue, and agrees with the source when nothing faults. */
  lemma RestoreIsConsistent(disk: Disk)
    requires WellFormed(disk)
    ensures Restore(disk).Consistent()
    ensures !(disk.Present? && Faults(disk.nodes)) ==> Restore(disk) == RestoreAsWritten(disk)
  {
  }

  /** What waitForMessage returns: nothing yet (it would block), or the message rebuilt from the record. */
  datatype Delivery = Blocked | Taken(message: Result<Message>)

  /** The message built from a pickup; a hash without a record throws NullPointerException. */
  function Receive(p: Pickup, dummyHash: string): Delivery {
    match p
    case Nothing => Blocked
    case Picked(h, None) => Taken(Err("NullPointerException"))
    case Picked(h, Some(row)) => Taken(Decode(h, row, dummyHash))
  }

  class StackQueue {
    var order: seq<string>
    var store: map<string, Row>
    const handleWidth: nat     // plasmaURL.urlHandleLength
    const dummyHash: string    // plasmaURL.dummyHash

    function State(): QueueState
      reads this
    {
      QueueState(order, store)
    }

    ghost predicate Valid()
      reads this
    {
      State().Consistent()
    }

    /** Opens the queue: the replay loop lists the store's keys in iteration order. */
    constructor(disk: Disk, handleWidth: nat, dummyHash: string)
      requires WellFormed(disk)
      ensures Valid() && State() == Restore(disk)
      ensures this.handleWidth == handleWidth && this.dummyHash == dummyHash
    {
      var listed: seq<string> := [];
      var rows: map<string, Row> := map[];
      if disk.Present? {
        rows := disk.rows;
        var nodes := disk.nodes;
        var i := 0;
        var faulted := false;
        while i < |nodes| && !faulted
          invariant 0 <= i <= |nodes|
          invariant !faulted ==> listed + Replayed(nodes[i..]) == Replayed(nodes)
          invariant !faulted ==> (Faults(nodes[i..]) <==> Faults(nodes))
          invariant faulted ==> Faults(nodes) && listed == Replayed(nodes)
          decreases |nodes| - i
        {
          assert nodes[i..][1..] == nodes[i + 1..];
          match nodes[i] {
            case Node(k) =>
              listed := listed + [k];
            case NullNode =>
            case Fault =>
              faulted := true;
          }
          i := i + 1;
        }
        if !faulted {
          assert nodes[i..] == [];
          assert listed == Replayed(nodes) && !Faults(nodes);
        }
        if faulted {
          listed := [];
          rows := map[];
        }
      }
      order := listed;
      store := rows;
      this.handleWidth := handleWidth;
      this.dummyHash := dummyHash;
      new;
      assert State() == Restore(disk);
      RestoreIsConsistent(disk);
    }

    /** addMessage: writes the message's record under its hash and lists the hash if it is new. */
    method AddMessage(m: Message)
      requires Valid() && IsInt(m.handle)
      modifies this
      ensures Valid()
      ensures State() == Put(old(State()), GetBytes(m, handleWidth))
    {
      var row := GetBytes(m, handleWidth);
      PutKeepsConsistent(State(), row);
      var isNew := row.key !in store;
      store := store[row.key := row];
      if isNew {
        order := order + [row.key];
      }
    }

    /** size: the number of listed hashes, which is also the number of stored records. */
    method Size() returns (n: nat)
      requires Valid()
      ensures n == |order| && n == |store|
    {
      SizeAgrees(State());
      n := |order|;
    }

    /** waitForMessage: takes the oldest hash and its record off the queue and rebuilds the message. */
    method WaitForMessage() returns (d: Delivery)
      requires Valid()
      modifies this
      ensures Valid()
      ensures State() == Take(old(State())).0
      ensures d == Receive(Take(old(State())).1, dummyHash)
    {
      TakeKeepsConsistent(State());
      if order == [] {
        d := Blocked;
        return;
      }
      var h := order[0];
      order := order[1..];
      var row := if h in store then Some(store[h]) else None;
      store := store - {h};
      d := if row.None? then Taken(Err("NullPointerException")) else Taken(Decode(h, row.value, dummyHash));
    }
  }

  /**
   * A message added to an empty queue is the message the next waitForMessage rebuilds, up to
   * what the record keeps; for the handles the source can hold, the reader as written rebuilds
   * the same message.
   */
  lemma AddThenWait(m: Message, handleWidth: nat, dummyHash: string)
    requires IsInt(m.handle)
    ensures var row := GetBytes(m, handleWidth);
      var p := Take(Put(Empty, row)).1;
      && p == Picked(m.urlHash, Some(row)) && Receive(p, dummyHash) == Taken(Decode(m.urlHash, row, dummyHash))
      && Receive(p, dummyHash).message.Ok?
      && (0 <= m.handle <= 9 ==> Receive(p, dummyHash).message == DecodeAsWritten(m.urlHash, row, dummyHash))
  {
    var row := GetBytes(m, handleWidth);
    var q := Put(Empty, row);
    assert q.order == [m.urlHash] && q.store == map[m.urlHash := row];
    assert Take(q).1 == Picked(m.urlHash, Some(row));
    HandleRoundTrip(m.handle, handleWidth);
    if 0 <= m.handle <= 9 {
      DecodeAgreesAsWritten(m, handleWidth, dummyHash);
    }
  }
}

=== FILE: crawl_stacker.dfy ===
/**
 * plasmaCrawlStacker: the front end that takes candidate URLs, queues them (enqueue),
 * and later runs each queued message through the admission filter (dequeue, stackCrawl),
 * putting admitted URLs on the crawl frontier.
 *
 * The frontier (urlPool.noticeURL) is modelled as the sequence of newEntry calls made;
 * the profile database (sb.profiles) is passed to dequeue as a map from handle to profile.
 */
module CrawlStacker {
  import opened Util
  import opened JavaText
  import opened CrawlMessage
  import opened CrawlAdmission
  import opened CrawlQueue

  /** The stackCrawl arguments dequeue builds from a queued message and its profile. */
  function DequeueRequest(m: Message, profile: Profile): Request {
    Request(Some(m.url), Some(m.referrerHash), m.InitiatorHash(), Some(m.name), Some(m.loadDate),
            m.depth, Some(profile))
  }

  /**
   * dequeue hands the stored referrer hash to stackCrawl where a referrer URL is expected,
   * so the frontier entry records the hash of that hash; and the message's initiator,
   * null or empty, is replaced by dummyHash as for any other call.
   */
  lemma DequeueHashesReferrerHash(m: Message, profile: Profile, env: Environment)
    requires Admit(DequeueRequest(m, profile), env).Admitted?
    ensures var e := Admit(DequeueRequest(m, profile), env).entry;
      && e.referrerHash == env.urlHashOfText(m.referrerHash)
      && e.url == m.url
      && e.profileHandle == Some(profile.handle)
      && (m.InitiatorHash().None? ==> e.initiator == env.dummyHash)
  {
  }

  /**
   * A URL the own peer enqueued (null or empty initiator) keeps that property through the
   * store: once dequeued and admitted it goes on the limit or core stack, never the remote one.
   */
  lemma OwnEnqueuedUrlsStayLocal(urlHashOf: string -> Option<string>, flagLength: nat, now: int,
                                 initiator: Option<string>, url: string, referrer: Option<string>,
                                 name: Option<string>, loadDate: Option<int>, profile: Profile,
                                 depth: int, handleWidth: nat, env: Environment)
    requires initiator.None? || initiator.value == []
    ensures var om := NewMessage(urlHashOf, env.dummyHash, flagLength, now, initiator, url, referrer, name,
                                 loadDate, Some(profile.handle), depth, 0, 0);
      om.Some? ==>
      var m := om.value;
      var d := Decode(m.urlHash, GetBytes(m, handleWidth), env.dummyHash);
      && d.Ok?
      && d.value.InitiatorHash().None?
      && (Admit(DequeueRequest(d.value, profile), env).Admitted? ==>
            Admit(DequeueRequest(d.value, profile), env).entry.stack != Remote)
  {
    var om := NewMessage(urlHashOf, env.dummyHash, flagLength, now, initiator, url, referrer, name,
                         loadDate, Some(profile.handle), depth, 0, 0);
    if om.None? {
      return;
    }
    var m := om.value;
    OwnMessageStaysOwn(m, handleWidth, env.dummyHash);
    var d := Decode(m.urlHash, GetBytes(m, handleWidth), env.dummyHash).value;
    var req := DequeueRequest(d, profile);
    if Admit(req, env).Admitted? {
      OwnUrlsAreNeverRemote(req, env);
    }
  }

  class Stacker {
    const env: Environment
    const flagLength: nat                // plasmaURL.urlFlagLength
    const queue: StackQueue
    var frontier: seq<NoticeEntry>       // the noticeURL.newEntry calls made so far

    ghost predicate Valid()
      reads this, queue
    {
      queue.Valid() && queue.dummyHash == env.dummyHash
    }

    /** Opens the stacker's queue from its store file; the frontier starts with no entries from this stacker. */
    constructor(env: Environment, flagLength: nat, disk: Disk, handleWidth: nat)
      requires WellFormed(disk)
      ensures Valid() && fresh(queue)
      ensures queue.State() == Restore(disk) && queue.handleWidth == handleWidth
      ensures frontier == [] && this.env == env && this.flagLength == flagLength
    {
      this.env := env;
      this.flagLength := flagLength;
      queue := new StackQueue(disk, handleWidth, env.dummyHash);
      frontier := [];
    }

    /** size: the number of queued messages. */
    method Size() returns (n: nat)
      requires Valid()
      ensures n == |queue.order| && n == |queue.store|
    {
      n := queue.Size();
    }

    /**
     * stackCrawl: returns the reason of the first failing check and leaves the frontier
     * alone, or returns null after exactly one frontier entry.
     */
    method StackCrawl(req: Request) returns (reason: Option<string>)
      modifies this
      ensures Admit(req, env).Denied? ==> reason == Some(Admit(req, env).reason) && frontier == old(frontier)
      ensures Admit(req, env).Admitted? ==> reason.None? && frontier == old(frontier) + [Admit(req, env).entry]
    {
      var verdict := Admit(req, env);
      match verdict {
        case Denied(r) =>
          reason := Some(r);
        case Admitted(e) =>
          frontier := frontier + [e];
          reason := None;
      }
    }

    /**
     * dequeue: looks up the message's profile; a handle that does not resolve throws
     * IllegalStateException, otherwise the message goes through stackCrawl.
     */
    method Dequeue(m: Message, profiles: map<string, Profile>) returns (r: Result<Option<string>>)
      modifies this
      ensures m.profileHandle.None? || m.profileHandle.value !in profiles ==>
        r == Err("IllegalStateException") && frontier == old(frontier)
      ensures m.profileHandle.Some? && m.profileHandle.value in profiles ==>
        var v := Admit(DequeueRequest(m, profiles[m.profileHandle.value]), env);
        && r.Ok?
        && (v.Denied? ==> r.value == Some(v.reason) && frontier == old(frontier))
        && (v.Admitted? ==> r.value.None? && frontier == old(frontier) + [v.entry])
    {
      if m.profileHandle.None? || m.profileHandle.value !in profiles {
        return Err("IllegalStateException");
      }
      var reason := StackCrawl(DequeueRequest(m, profiles[m.profileHandle.value]));
      r := Ok(reason);
    }

    /**
     * enqueue: builds a message (handle 0) and adds it to the queue. A null profile, a null
     * URL, or a URL or referrer whose hash is null makes the source throw before anything is
     * stored, and the exception is swallowed.
     */
    method Enqueue(url: Option<string>, referrer: Option<string>, initiator: Option<string>,
                   name: Option<string>, loadDate: Option<int>, depth: int, profile: Option<Profile>,
                   now: int)
      requires Valid()
      modifies queue
      ensures Valid()
      ensures url.None? || profile.None? ==> queue.State() == old(queue.State())
      ensures url.Some? && profile.Some? ==>
        var m := NewMessage(env.urlHashOfText, env.dummyHash, flagLength, now, initiator, url.value,
                            referrer, name, loadDate, Some(profile.value.handle), depth, 0, 0);
        && (m.None? ==> queue.State() == old(queue.State()))
        && (m.Some? ==> queue.State() == Put(old(queue.State()), GetBytes(m.value, queue.handleWidth)))
    {
      if url.None? || profile.None? {
        return;
      }
      var m := NewMessage(env.urlHashOfText, env.dummyHash, flagLength, now, initiator, url.value, referrer,
                          name, loadDate, Some(profile.value.handle), depth, 0, 0);
      if m.None? {
        return;
      }
      queue.AddMessage(m.value);
    }
  }
}

=== FILE: dht_transfer.dfy ===
/**
 * plasmaDHTTransfer: the worker that uploads one chunk of the reverse word index to a
 * remote peer, retrying on busy and error replies, reconnecting after errors, and giving
 * up after maxRetry failures.
 *
 * The network calls, the other thread's stopIt and the sleeps are inputs and counters:
 * the k-th transferIndex call returns replies(k), the k-th publishMySeed call returns
 * pingResults(k), stopIt has been called by the k-th isAborted check when stopRequested(k)
 * holds (a thread interrupt is not modelled), and every Thread.sleep adds its length to the slept counter. Agent is a snapshot
 * of the worker's fields; the functions over it specify the methods of class Transfer.
 */
module DhtTransfer {
  import opened Util
  import opened JavaText

  /** plasmaDHTChunk's chunk status values a transfer goes through. */
  datatype Status = Undefined | Running | Complete | Failed | Interrupted

  datatype Mode = Distribution | Flush

  /** transferStatusMessage, by kind; the peer names and hashes in the texts are left out. */
  datatype Note =
    | Blank                                 // the initial ""
    | Transferring                          // "Running: Transfering chunk to target …"
    | FinishedPausing(pause: int)           // "Finished: Transfer of chunk to target …. Pausing <pause> ms."
    | Finished                              // "Finished: Transfer of chunk to target …"
    | Busy(wait: int)                       // "Peer … is busy. Waiting <wait> ms."
    | TransferFailed(error: string)         // "Transfer to peer … failed:'<error>', Trying to reconnect ..."
    | RetryLimit                            // "Transfer aborted. Retry limit reached."
    | PingFailed(retry: nat, gaveUp: bool)  // "Disconnected peer: Peer ping failed. " and "Transfer aborted." or "Retry <retry>"
    | Reconnected                           // "running"
    | Aborted                               // "aborted"

  /**
   * What yacyClient.transferIndex returns: the "result" entry (null on success), the
   * "payloadSize" entry, and the "resultTransferRWI" map, whose values may be null.
   */
  datatype Reply = Reply(result: Option<string>, payloadSize: int,
                         transferRWI: Option<map<string, Option<string>>>)

  datatype Inputs = Inputs(replies: nat -> Reply, pingResults: nat -> int, stopRequested: nat -> bool)

  /** The worker's fields, with the network, ping, departure, reconnect and sleep counters. */
  datatype Agent = Agent(status: Status, note: Note, payloadSize: int, stopped: bool, mode: Mode,
                         checks: nat, attempts: nat, pings: nat, departures: nat, connects: nat,
                         slept: nat)

  /**
   * getBusyTime: -1 when the reply has no resultTransferRWI map or the map has no "pause"
   * key; otherwise the requested pause clamped to [0, 30000], with 5000 for a value that
   * is negative or not a number.
   */
  function BusyTime(rwi: Option<map<string, Option<string>>>): (p: int)
    ensures p == -1 <==> rwi.None? || "pause" !in rwi.value
    ensures p != -1 ==> 0 <= p <= 30000
  {
    if rwi.None? || "pause" !in rwi.value then -1
    else
      var pause := ParseInt(rwi.value["pause"]).GetOr(-1);
      if pause < 0 then 5000 else if pause > 30000 then 30000 else pause
  }

  /**
   * The requested pause is honoured within [0, 30000]: larger values are cut to 30000, and
   * a negative value or one that is not a decimal int gives 5000.
   */
  lemma BusyTimeClamp(rwi: map<string, Option<string>>)
    requires "pause" in rwi
    ensures var p := BusyTime(Some(rwi));
      var v := ParseInt(rwi["pause"]);
      && (v.None? ==> p == 5000)
      && (v.Some? && v.value < 0 ==> p == 5000)
      && (v.Some? && 0 <= v.value <= 30000 ==> p == v.value)
      && (v.Some? && v.value > 30000 ==> p == 30000)
  {
  }

  /** isAborted: a stop is sticky; once seen, the status is INTERRUPTED with the message "aborted". */
  function Check(a: Agent, io: Inputs): (r: Agent)
    ensures r.stopped <==> a.stopped || io.stopRequested(a.checks)
    ensures r.checks == a.checks + 1
    ensures r.stopped ==> r.status == Interrupted && r.note == Aborted
    ensures !r.stopped ==> r == a.(checks := a.checks + 1)
  {
    var s := a.stopped || io.stopRequested(a.checks);
    var b := a.(checks := a.checks + 1, stopped := s);
    if s then b.(status := Interrupted, note := Aborted) else b
  }

  /** Nothing but the abort checks, the stop flag, the status, the message and the sleep counter differ. */
  predicate SameWork(a: Agent, r: Agent) {
    && r.payloadSize == a.payloadSize && r.mode == a.mode && r.attempts == a.attempts
    && r.pings == a.pings && r.departures == a.departures && r.connects == a.connects
  }

  /**
   * The effect of a pause on status and message: none while no stop is seen, INTERRUPTED
   * and "aborted" once one is.
   */
  predicate PauseEffect(a: Agent, r: Agent) {
    && SameWork(a, r) && r.checks >= a.checks && r.slept >= a.slept
    && (a.stopped ==> r.stopped)
    && (!r.stopped ==> r.status == a.status && r.note == a.note)
    && (r.stopped && !a.stopped ==> r.status == Interrupted && r.note == Aborted)
  }

  /** pause's loop: at most counter one-second sleeps, each preceded by an abort check, and one final check. */
  function SleepLoop(a: Agent, io: Inputs, counter: nat): (r: Agent)
    ensures PauseEffect(a, r)
    ensures a.checks < r.checks <= a.checks + counter + 1
    ensures r.slept - a.slept <= 1000 * counter
    ensures !r.stopped ==> r.slept - a.slept == 1000 * counter
    decreases counter
  {
    var b := Check(a, io);
    if b.stopped || counter == 0 then b else SleepLoop(b.(slept := b.slept + 1000), io, counter - 1)
  }

  /**
   * The loop sleeps one second after each abort check that saw no stop, and ends at the
   * first check that sees a stop or when the counter runs out; the last check decides which.
   */
  lemma {:induction false} SleepLoopStops(a: Agent, io: Inputs, counter: nat)
    ensures var r := SleepLoop(a, io, counter);
      && r.slept - a.slept == 1000 * (r.checks - a.checks - 1)
      && (r.checks - a.checks - 1 < counter ==> r.stopped)
      && (a.stopped ==> r.checks == a.checks + 1)
      && (forall k :: a.checks <= k < r.checks - 1 ==> !io.stopRequested(k))
      && (r.stopped <==> a.stopped || io.stopRequested(r.checks - 1))
    decreases counter
  {
    var b := Check(a, io);
    if !b.stopped && counter > 0 {
      SleepLoopStops(b.(slept := b.slept + 1000), io, counter - 1);
    }
  }

  /**
   * pause: nothing for 0 ms; otherwise whole seconds until a stop is seen, then the
   * remainder. The sleep adds up to at most the requested time, and to exactly that when
   * no stop is seen; a stop cuts the whole seconds short at the check that sees it, and the
   * remainder t % 1000 is slept after the loop in either case.
   */
  function Paused(a: Agent, io: Inputs, t: nat): (r: Agent)
    ensures PauseEffect(a, r)
    ensures r.slept - a.slept <= t
    ensures !r.stopped ==> r.slept - a.slept == t
    ensures t == 0 ==> r == a
    ensures r.checks - a.checks <= t / 1000 + 1
    ensures t > 0 ==> r.slept - a.slept == 1000 * (r.checks - a.checks - 1) + t % 1000
    ensures t > 0 && r.checks - a.checks - 1 < t / 1000 ==> r.stopped
    ensures t > 0 && a.stopped ==> r.checks == a.checks + 1
    ensures forall k :: a.checks <= k < r.checks - 1 ==> !io.stopRequested(k)
  {
    if t == 0 then a
    else
      SleepLoopStops(a, io, t / 1000);
      var b := SleepLoop(a, io, t / 1000);
      if t % 1000 > 0 then b.(slept := b.slept + t % 1000) else b
  }

  /** A reply that makes the agent notify the peer's departure and reconnect: an error other than "busy". */
  predicate IsHardError(reply: Reply) {
    reply.result.Some? && reply.result.value != "busy"
  }

  /** The number of hard errors among replies lo to hi - 1. */
  function HardErrors(io: Inputs, lo: nat, hi: nat): nat
    decreases hi - lo
  {
    if hi <= lo then 0 else (if IsHardError(io.replies(lo)) then 1 else 0) + HardErrors(io, lo + 1, hi)
  }

  /** Rounds left for a retry count: the retry counter may still grow this often before the limit is passed. */
  function Budget(retry: nat, maxRetry: int): nat {
    if retry <= maxRetry then maxRetry - retry + 1 else 0
  }

  /** The most transferIndex calls left at a retry count. */
  function AttemptBound(retry: nat, maxRetry: int): nat {
    if retry <= maxRetry then maxRetry - retry + 1 else 1
  }

  /** The agent may go on: it is running, or it has seen a stop (and its next check will say so). */
  predicate Live(a: Agent) {
    a.stopped || a.status == Running
  }

  /**
   * How uploadIndex can end: COMPLETE after a successful reply, FAILED after an error reply
   * that passed the retry limit, INTERRUPTED after a stop, or still RUNNING when the
   * reconnect loop gave up.
   */
  predicate Settled(a: Agent, r: Agent, io: Inputs, maxRetry: int) {
    && (r.status == Complete || r.status == Failed || r.status == Interrupted || r.status == Running)
    && (r.status == Complete ==>
          && r.attempts > a.attempts
          && var last := io.replies(r.attempts - 1);
          && last.result.None? && r.payloadSize == last.payloadSize
          && (r.mode == Distribution ==> r.note == Finished)
          && (r.mode == Flush && BusyTime(last.transferRWI) == -1 ==> r.note == Transferring)
          && (r.mode == Flush && BusyTime(last.transferRWI) != -1 ==>
                r.note == if r.stopped then Aborted else FinishedPausing(BusyTime(last.transferRWI))))
    && (r.status == Failed ==>
          r.note == RetryLimit && r.attempts > a.attempts && io.replies(r.attempts - 1).result.Some?)
    && (r.status == Interrupted ==> r.stopped && r.note == Aborted)
    && (r.status == Running ==> !r.stopped && r.note.PingFailed? && r.note.retry > maxRetry)
  }

  /** The counters only grow, the mode stays, and every peer departure follows a hard error. */
  predicate Progress(a: Agent, r: Agent, io: Inputs) {
    && r.mode == a.mode && r.checks > a.checks && r.slept >= a.slept
    && r.attempts >= a.attempts && r.pings >= a.pings && r.connects >= a.connects
    && a.departures <= r.departures <= a.departures + HardErrors(io, a.attempts, r.attempts)
  }

  /** The first steps of a round after the abort check: transferIndex is called and the message set. */
  function Attempted(b: Agent): Agent {
    b.(attempts := b.attempts + 1, note := Transferring)
  }

  /**
   * After a successful reply: the payload size is kept, then the message for DISTRIBUTION,
   * or the pause the peer asked for in FLUSH mode, and the status COMPLETE.
   */
  function Delivered(c: Agent, io: Inputs, reply: Reply): Agent {
    var d := c.(payloadSize := reply.payloadSize);
    var p := BusyTime(reply.transferRWI);
    var e := if d.mode == Distribution then d.(note := Finished)
             else if p != -1 then Paused(d.(note := FinishedPausing(p)), io, p)
             else d;
    e.(status := Complete)
  }

  /** After an error reply below the retry limit: the message, then the pause. */
  function ErrorPaused(f: Agent, io: Inputs, reply: Reply, next: nat): Agent
    requires reply.result.Some?
  {
    Paused(AfterError(f, reply, next), io, ErrorWait(reply, next))
  }

  /** The pause after an error reply: the peer's busy time (60000 without one) for "busy", retry * 10000 otherwise. */
  function ErrorWait(reply: Reply, retry: nat): (t: nat)
    requires reply.result.Some?
    ensures reply.result.value == "busy" ==> t <= 60000
  {
    if reply.result.value != "busy" then retry * 10000
    else if BusyTime(reply.transferRWI) == -1 then 60000 else BusyTime(reply.transferRWI)
  }

  /** The message after an error reply; a hard error also notifies the peer's departure. */
  function AfterError(f: Agent, reply: Reply, retry: nat): Agent
    requires reply.result.Some?
  {
    if reply.result.value == "busy" then f.(note := Busy(ErrorWait(reply, retry)))
    else f.(note := TransferFailed(reply.result.value), departures := f.departures + 1)
  }

  /** The message after a failed ping; it says the transfer is aborted once retry passes 5. */
  function PingFailedNote(c: Agent, retry: nat): (d: Agent)
    ensures d.note.PingFailed? && d.note.retry == retry && (d.note.gaveUp <==> retry > 5)
  {
    c.(note := PingFailed(retry, retry > 5))
  }


  /**
   * Where one round of either loop of uploadIndex leads: the upload ends in a state, the same
   * loop goes round again, or control passes to the other loop, with the retry count to go on with.
   */
  datatype Step = Stop(result: Agent) | Again(state: Agent, retry: nat) | Switch(state: Agent, retry: nat)

  /**
   * One round of the outer loop: the abort check, a transferIndex call, and on an error reply
   * a second check, FAILED past the retry limit, or the pause before the busy peer is tried
   * again or the reconnect loop starts.
   */
  function TransferStep(a: Agent, io: Inputs, maxRetry: int, retry: nat): (s: Step)
    ensures !s.Stop? ==> s.retry == retry + 1 <= maxRetry
  {
    var b := Check(a, io);
    if b.stopped then Stop(b)
    else
      var reply := io.replies(b.attempts);
      var c := Attempted(b);
      if reply.result.None? then Stop(Delivered(c, io, reply))
      else
        var next := retry + 1;
        var f := Check(c, io);
        if f.stopped then Stop(f)
        else if next > maxRetry then Stop(AfterError(f, reply, next).(note := RetryLimit, status := Failed))
        else if reply.result.value == "busy" then Again(ErrorPaused(f, io, reply, next), next)
        else Switch(ErrorPaused(f, io, reply, next), next)
  }

  /**
   * One round of the reconnect loop: the abort check, a ping, and after a failed ping the end
   * of the upload past the retry limit or a pause; a successful ping resumes the outer loop
   * with the same retry count.
   */
  function ReconnectStep(a: Agent, io: Inputs, maxRetry: int, retry: nat): (s: Step)
    ensures s.Again? ==> s.retry == retry + 1 <= maxRetry
    ensures s.Switch? ==> s.retry == retry
  {
    var b := Check(a, io);
    if b.stopped then Stop(b)
    else
      var c := b.(pings := b.pings + 1);
      if io.pingResults(b.pings) < 0 then
        var next := retry + 1;
        if next > maxRetry then Stop(PingFailedNote(c, next))
        else Again(Paused(PingFailedNote(c, next), io, next * 10000), next)
      else Switch(c.(connects := c.connects + 1, note := Reconnected), retry)
  }

  /** uploadIndex's outer loop, entered with the given retry count. */
  function Outer(a: Agent, io: Inputs, maxRetry: int, retry: nat): Agent
    decreases Budget(retry, maxRetry), 0
  {
    match TransferStep(a, io, maxRetry, retry)
    case Stop(r) => r
    case Again(h, next) => Outer(h, io, maxRetry, next)
    case Switch(h, next) => Reconnect(h, io, maxRetry, next)
  }

  /** uploadIndex's reconnect loop, entered with the given retry count. */
  function Reconnect(a: Agent, io: Inputs, maxRetry: int, retry: nat): Agent
    decreases Budget(retry, maxRetry), 1
  {
    match ReconnectStep(a, io, maxRetry, retry)
    case Stop(r) => r
    case Again(h, next) => Reconnect(h, io, maxRetry, next)
    case Switch(h, next) => Outer(h, io, maxRetry, next)
  }

  /**
   * What a run of the loops from a given state and retry count guarantees: the counters only
   * grow, transferIndex is called at most AttemptBound times, every peer departure follows a
   * hard error, a stop ends in INTERRUPTED unless the chunk was delivered, and a live agent
   * ends settled.
   */
  predicate Outcome(a: Agent, r: Agent, io: Inputs, maxRetry: int, retry: nat) {
    && Progress(a, r, io)
    && r.attempts - a.attempts <= AttemptBound(retry, maxRetry)
    && (r.stopped ==> r.status == Interrupted || r.status == Complete)
    && (Live(a) ==> Settled(a, r, io, maxRetry))
  }

  /** Hard errors over consecutive ranges add up. */
  lemma {:induction false} HardErrorsSplit(io: Inputs, lo: nat, mid: nat, hi: nat)
    requires lo <= mid <= hi
    ensures HardErrors(io, lo, hi) == HardErrors(io, lo, mid) + HardErrors(io, mid, hi)
    decreases mid - lo
  {
    if lo < mid {
      HardErrorsSplit(io, lo + 1, mid, hi);
    }
  }

  lemma ProgressTrans(a: Agent, b: Agent, c: Agent, io: Inputs)
    requires Progress(a, b, io) && Progress(b, c, io)
    ensures Progress(a, c, io)
  {
    HardErrorsSplit(io, a.attempts, b.attempts, c.attempts);
  }

  /** An outcome reached from an intermediate state with a retry count no smaller is an outcome from the start. */
  lemma OutcomeChain(a: Agent, h: Agent, r: Agent, io: Inputs, maxRetry: int, retry: nat, next: nat)
    requires Progress(a, h, io) && Outcome(h, r, io, maxRetry, next)
    requires h.attempts - a.attempts + AttemptBound(next, maxRetry) <= AttemptBound(retry, maxRetry)
    requires Live(a) ==> Live(h)
    ensures Outcome(a, r, io, maxRetry, retry)
  {
    ProgressTrans(a, h, r, io);
  }

  /**
   * A round of the outer loop that ends the upload ends it settled, and without pinging the
   * peer; it notifies a departure exactly when it fails on the retry limit after a hard error.
   */
  lemma TransferStepEnds(a: Agent, io: Inputs, maxRetry: int, retry: nat)
    requires TransferStep(a, io, maxRetry, retry).Stop?
    ensures var r := TransferStep(a, io, maxRetry, retry).result;
      && Outcome(a, r, io, maxRetry, retry) && r.pings == a.pings && r.connects == a.connects
      && r.departures == a.departures + (if r.status == Failed && IsHardError(io.replies(a.attempts)) then 1 else 0)
  {
    var b := Check(a, io);
    if !b.stopped {
      assert HardErrors(io, a.attempts, a.attempts + 1) == if IsHardError(io.replies(a.attempts)) then 1 else 0;
    }
  }

  /**
   * A round of the outer loop that goes on has made one transferIndex call; it reconnects
   * exactly after a hard error, having notified the peer's departure once, and otherwise has
   * neither pinged the peer nor notified a departure.
   */
  lemma TransferStepGoesOn(a: Agent, io: Inputs, maxRetry: int, retry: nat)
    requires !TransferStep(a, io, maxRetry, retry).Stop?
    ensures var s := TransferStep(a, io, maxRetry, retry);
      && Progress(a, s.state, io) && s.state.attempts == a.attempts + 1 && (Live(a) ==> Live(s.state))
      && (s.Switch? <==> IsHardError(io.replies(a.attempts)))
      && (s.Again? ==> s.state.pings == a.pings && s.state.connects == a.connects)
      && (s.Switch? ==> s.state.departures == a.departures + 1)
      && (s.Again? ==> s.state.departures == a.departures)
  {
    assert HardErrors(io, a.attempts, a.attempts + 1) == if IsHardError(io.replies(a.attempts)) then 1 else 0;
  }

  /** A round of the reconnect loop that ends the upload ends it settled; one that goes on has made no transferIndex call. */
  lemma ReconnectStepFacts(a: Agent, io: Inputs, maxRetry: int, retry: nat)
    ensures var s := ReconnectStep(a, io, maxRetry, retry);
      && (s.Stop? ==> Outcome(a, s.result, io, maxRetry, retry))
      && (!s.Stop? ==> Progress(a, s.state, io) && s.state.attempts == a.attempts && (Live(a) ==> Live(s.state)))
  {
  }

  lemma {:induction false} OuterOutcome(a: Agent, io: Inputs, maxRetry: int, retry: nat)
    ensures Outcome(a, Outer(a, io, maxRetry, retry), io, maxRetry, retry)
    decreases Budget(retry, maxRetry), 0
  {
    var r := Outer(a, io, maxRetry, retry);
    match TransferStep(a, io, maxRetry, retry)
    case Stop(_) =>
      TransferStepEnds(a, io, maxRetry, retry);
    case Again(h, next) =>
      TransferStepGoesOn(a, io, maxRetry, retry);
      OuterOutcome(h, io, maxRetry, next);
      OutcomeChain(a, h, r, io, maxRetry, retry, next);
    case Switch(h, next) =>
      TransferStepGoesOn(a, io, maxRetry, retry);
      ReconnectOutcome(h, io, maxRetry, next);
      OutcomeChain(a, h, r, io, maxRetry, retry, next);
  }

  lemma {:induction false} ReconnectOutcome(a: Agent, io: Inputs, maxRetry: int, retry: nat)
    ensures Outcome(a, Reconnect(a, io, maxRetry, retry), io, maxRetry, retry)
    decreases Budget(retry, maxRetry), 1
  {
    var r := Reconnect(a, io, maxRetry, retry);
    ReconnectStepFacts(a, io, maxRetry, retry);
    match ReconnectStep(a, io, maxRetry, retry)
    case Stop(_) =>
    case Again(h, next) =>
      ReconnectOutcome(h, io, maxRetry, next);
      OutcomeChain(a, h, r, io, maxRetry, retry, next);
    case Switch(h, next) =>
      OuterOutcome(h, io, maxRetry, next);
      OutcomeChain(a, h, r, io, maxRetry, retry, next);
  }

  /** Without a hard error among its replies, the outer loop never pings the peer and never reconnects. */
  lemma {:induction false} OuterWithoutHardErrors(a: Agent, io: Inputs, maxRetry: int, retry: nat)
    ensures var r := Outer(a, io, maxRetry, retry);
      HardErrors(io, a.attempts, r.attempts) == 0 ==> r.pings == a.pings && r.connects == a.connects
    decreases Budget(retry, maxRetry)
  {
    var r := Outer(a, io, maxRetry, retry);
    match TransferStep(a, io, maxRetry, retry)
    case Stop(_) =>
      TransferStepEnds(a, io, maxRetry, retry);
    case Again(h, next) =>
      TransferStepGoesOn(a, io, maxRetry, retry);
      OuterOutcome(h, io, maxRetry, next);
      OuterWithoutHardErrors(h, io, maxRetry, next);
      HardErrorsSplit(io, a.attempts, h.attempts, r.attempts);
    case Switch(h, next) =>
      TransferStepGoesOn(a, io, maxRetry, retry);
      ReconnectOutcome(h, io, maxRetry, next);
      HardErrorsSplit(io, a.attempts, h.attempts, r.attempts);
  }

  /** uploadIndex: the status becomes RUNNING and the outer loop starts with no retries. */
  function Upload(a: Agent, io: Inputs, maxRetry: int): Agent {
    Outer(a.(status := Running), io, maxRetry, 0)
  }

  /**
   * What an upload ends with: transferIndex was called at most maxRetry + 1 times (once
   * when maxRetry is negative); COMPLETE only after a successful last reply, whose payload
   * size is kept; FAILED only with the retry-limit message after an error reply;
   * INTERRUPTED only with the message "aborted"; RUNNING only when the reconnect loop passed
   * the retry limit; and a stop ends in INTERRUPTED unless the chunk was already delivered.
   */
  lemma UploadOutcome(a: Agent, io: Inputs, maxRetry: int)
    ensures var r := Upload(a, io, maxRetry);
      && r.attempts - a.attempts <= (if 0 <= maxRetry then maxRetry + 1 else 1)
      && Settled(a, r, io, maxRetry)
      && (r.stopped ==> r.status == Interrupted || r.status == Complete)
      && a.departures <= r.departures <= a.departures + HardErrors(io, a.attempts, r.attempts)
  {
    OuterOutcome(a.(status := Running), io, maxRetry, 0);
  }

  /** With only "busy" replies the agent never notifies a departure and never pings the peer. */
  lemma BusyRepliesNeverReconnect(a: Agent, io: Inputs, maxRetry: int)
    requires forall k :: !IsHardError(io.replies(k))
    ensures var r := Upload(a, io, maxRetry);
      r.departures == a.departures && r.pings == a.pings && r.connects == a.connects
  {
    var r := Upload(a, io, maxRetry);
    OuterOutcome(a.(status := Running), io, maxRetry, 0);
    OuterWithoutHardErrors(a.(status := Running), io, maxRetry, 0);
    NoHardErrors(io, a.attempts, r.attempts);
  }

  lemma {:induction false} NoHardErrors(io: Inputs, lo: nat, hi: nat)
    requires forall k :: !IsHardError(io.replies(k))
    ensures HardErrors(io, lo, hi) == 0
    decreases hi - lo
  {
    if lo < hi {
      NoHardErrors(io, lo + 1, hi);
    }
  }

  /**
   * isAborted's INTERRUPTED is followed by a return: once the stop flag is set, both loops
   * end at their next check, with no transfer call and no ping.
   */
  lemma StopEndsLoops(a: Agent, io: Inputs, maxRetry: int, retry: nat)
    requires a.stopped
    ensures Outer(a, io, maxRetry, retry) == Check(a, io)
    ensures Reconnect(a, io, maxRetry, retry) == Check(a, io)
  {
  }

  /** A stop requested before the upload starts ends it at the first check, with no transfer at all. */
  lemma StopBeforeStart(a: Agent, io: Inputs, maxRetry: int)
    requires a.stopped || io.stopRequested(a.checks)
    ensures var r := Upload(a, io, maxRetry);
      r.status == Interrupted && r.note == Aborted && r.attempts == a.attempts && r.checks == a.checks + 1
  {
  }

  /** How a round of one of uploadIndex's loops ends: the upload is over, or the next round follows. */
  datatype Round = Ended | Retrying | Reconnecting | Resuming

  /** The agent whose fields the constructor sets. */
  const Fresh: Agent := Agent(Undefined, Blank, 0, false, Distribution, 0, 0, 0, 0, 0, 0)

  class Transfer {
    var status: Status
    var note: Note
    var payloadSize: int
    var stopped: bool
    var mode: Mode
    var checks: nat
    var attempts: nat
    var pings: nat
    var departures: nat
    var connects: nat
    var slept: nat
    const maxRetry: int

    function State(): Agent
      reads this
    {
      Agent(status, note, payloadSize, stopped, mode, checks, attempts, pings, departures, connects, slept)
    }

    constructor(retries: int)
      ensures State() == Fresh && maxRetry == retries
    {
      status, note, payloadSize, stopped, mode := Undefined, Blank, 0, false, Distribution;
      checks, attempts, pings, departures, connects, slept := 0, 0, 0, 0, 0, 0;
      maxRetry := retries;
    }

    method SetTransferMode(m: Mode)
      modifies this
      ensures State() == old(State()).(mode := m)
    {
      mode := m;
    }

    /** stopIt, called from another thread. */
    method StopIt()
      modifies this
      ensures State() == old(State()).(stopped := true)
    {
      stopped := true;
    }

    function GetStatus(): Status
      reads this
    {
      status
    }

    function GetStatusMessage(): Note
      reads this
    {
      note
    }

    function GetPayloadSize(): int
      reads this
    {
      payloadSize
    }

    method IsAborted(io: Inputs) returns (aborted: bool)
      modifies this
      ensures State() == Check(old(State()), io)
      ensures aborted == stopped
    {
      stopped := stopped || io.stopRequested(checks);
      checks := checks + 1;
      if stopped {
        status := Interrupted;
        note := Aborted;
      }
      aborted := stopped;
    }

    method Pause(io: Inputs, sleepTime: nat)
      modifies this
      ensures State() == Paused(old(State()), io, sleepTime)
    {
      if sleepTime == 0 {
        return;
      }
      var sleepCounter: nat := sleepTime / 1000;
      var sleepRest := sleepTime % 1000;
      ghost var goal := SleepLoop(State(), io, sleepCounter);
      while true
        invariant goal == SleepLoop(State(), io, sleepCounter)
        decreases sleepCounter
      {
        var aborted := IsAborted(io);
        if aborted || sleepCounter == 0 {
          break;
        }
        sleepCounter := sleepCounter - 1;
        slept := slept + 1000;
      }
      if sleepRest > 0 {
        slept := slept + sleepRest;
      }
    }

    /**
     * uploadIndex. Each round of its outer loop is TransferRound, and the reconnect loop
     * after a hard error is ReconnectLoop.
     */
    method UploadIndex(io: Inputs)
      modifies this
      ensures State() == Upload(old(State()), io, maxRetry)
    {
      status := Running;
      var retry: nat := 0;
      ghost var goal := Outer(State(), io, maxRetry, 0);
      while true
        invariant goal == Outer(State(), io, maxRetry, retry)
        invariant retry == 0 || retry <= maxRetry
        decreases Budget(retry, maxRetry)
      {
        var next, round := TransferRound(io, retry);
        if round == Ended {
          return;
        }
        if round == Reconnecting {
          var resumed;
          next, resumed := ReconnectLoop(io, next);
          if !resumed {
            return;
          }
        }
        retry := next;
      }
    }

    /**
     * One round of uploadIndex's outer loop: the abort check, one transferIndex call and
     * what follows from its reply, up to the pause before the next round.
     */
    method TransferRound(io: Inputs, retry: nat) returns (next: nat, round: Round)
      modifies this
      ensures round == Ended || round == Retrying || round == Reconnecting
      ensures round == Ended ==> TransferStep(old(State()), io, maxRetry, retry) == Stop(State())
      ensures round == Retrying ==> TransferStep(old(State()), io, maxRetry, retry) == Again(State(), next)
      ensures round == Reconnecting ==> TransferStep(old(State()), io, maxRetry, retry) == Switch(State(), next)
    {
      next := retry;
      var aborted := IsAborted(io);
      if aborted {
        return next, Ended;
      }
      ghost var b := State();
      var reply := io.replies(attempts);
      attempts := attempts + 1;
      note := Transferring;
      ghost var c := State();
      assert c == Attempted(b);
      if reply.result.None? {
        Deliver(io, reply);
        return next, Ended;
      }
      next := retry + 1;
      aborted := IsAborted(io);
      if aborted {
        return next, Ended;
      }
      ghost var f := State();
      assert f == Check(c, io);
      round := AfterErrorReply(io, reply, next);
    }

    /** The success branch of a round: the payload size, the message or the FLUSH pause, and COMPLETE. */
    method Deliver(io: Inputs, reply: Reply)
      modifies this
      ensures State() == Delivered(old(State()), io, reply)
    {
      payloadSize := reply.payloadSize;
      if mode == Flush {
        var pause := BusyTime(reply.transferRWI);
        if pause != -1 {
          note := FinishedPausing(pause);
          Pause(io, pause);
        }
      } else {
        note := Finished;
      }
      status := Complete;
    }

    /**
     * The error branch of a round, after the second abort check: the busy or failure message,
     * then FAILED past the retry limit, or else the pause before retrying or reconnecting.
     */
    method AfterErrorReply(io: Inputs, reply: Reply, next: nat) returns (round: Round)
      requires reply.result.Some?
      modifies this
      ensures round == Ended <==> next > maxRetry
      ensures round == Ended ==> State() == AfterError(old(State()), reply, next).(note := RetryLimit, status := Failed)
      ensures round != Ended ==> State() == ErrorPaused(old(State()), io, reply, next)
      ensures round == Reconnecting <==> round != Ended && reply.result.value != "busy"
      ensures round == Ended || round == Retrying || round == Reconnecting
    {
      var reconnectNeeded := false;
      var pauseTime: nat;
      if reply.result.value == "busy" {
        var busyTime := BusyTime(reply.transferRWI);
        pauseTime := if busyTime == -1 then 60000 else busyTime;
        note := Busy(pauseTime);
      } else {
        note := TransferFailed(reply.result.value);
        departures := departures + 1;
        pauseTime := next * 10000;
        reconnectNeeded := true;
      }
      if next > maxRetry {
        note := RetryLimit;
        status := Failed;
        return Ended;
      }
      Pause(io, pauseTime);
      round := if reconnectNeeded then Reconnecting else Retrying;
    }

    /**
     * The reconnect loop of uploadIndex: pings the peer until a ping succeeds (resumed),
     * or a stop is seen or the retry limit is passed (the upload ends).
     */
    method ReconnectLoop(io: Inputs, retry: nat) returns (next: nat, resumed: bool)
      requires retry <= maxRetry
      modifies this
      ensures resumed ==> retry <= next <= maxRetry
      ensures resumed ==> Reconnect(old(State()), io, maxRetry, retry) == Outer(State(), io, maxRetry, next)
      ensures !resumed ==> State() == Reconnect(old(State()), io, maxRetry, retry)
    {
      next := retry;
      ghost var goal := Reconnect(State(), io, maxRetry, retry);
      while true
        invariant goal == Reconnect(State(), io, maxRetry, next)
        invariant retry <= next <= maxRetry
        decreases Budget(next, maxRetry)
      {
        var after, round := ReconnectRound(io, next);
        if round == Ended {
          return next, false;
        }
        if round == Resuming {
          return next, true;
        }
        next := after;
      }
    }

    /** One round of the reconnect loop: the abort check, one ping, and the pause after a failed one. */
    method ReconnectRound(io: Inputs, retry: nat) returns (next: nat, round: Round)
      modifies this
      ensures round == Ended || round == Retrying || round == Resuming
      ensures round == Ended ==> ReconnectStep(old(State()), io, maxRetry, retry) == Stop(State())
      ensures round == Retrying ==> ReconnectStep(old(State()), io, maxRetry, retry) == Again(State(), next)
      ensures round == Resuming ==> ReconnectStep(old(State()), io, maxRetry, retry) == Switch(State(), next)
    {
      next := retry;
      var aborted := IsAborted(io);
      if aborted {
        return next, Ended;
      }
      var added := io.pingResults(pings);
      pings := pings + 1;
      if added < 0 {
        next := retry + 1;
        round := AfterFailedPing(io, next);
      } else {
        connects := connects + 1;
        note := Reconnected;
        round := Resuming;
      }
    }

    /** After a failed ping: the message, then the end of the upload past the retry limit or else the pause. */
    method AfterFailedPing(io: Inputs, next: nat) returns (round: Round)
      modifies this
      ensures round == Ended <==> next > maxRetry
      ensures round == Ended || round == Retrying
      ensures round == Ended ==> State() == PingFailedNote(old(State()), next)
      ensures round == Retrying ==> State() == Paused(PingFailedNote(old(State()), next), io, next * 10000)
    {
      note := PingFailed(next, next > 5);
      if next > maxRetry {
        return Ended;
      }
      Pause(io, next * 10000);
      round := Retrying;
    }
  }
}

=== FILE: java_text.dfy ===
/**
 * The few pieces of the Java platform that the crawl stacker and the transfer agent
 * rely on for their observable behaviour: Integer.parseInt / Integer.valueOf,
 * Integer.toString, Integer.toHexString, String.trim and long division.
 * Characters are treated as single bytes; Character.digit is modelled for ASCII only.
 */
module JavaText {
  import opened Util

  const IntMin: int := -0x8000_0000
  const IntMax: int := 0x7fff_ffff
  const TwoTo32: int := 0x1_0000_0000

  /** x fits in a Java int. */
  predicate IsInt(x: int) {
    IntMin <= x <= IntMax
  }

  /** The 32-bit pattern of a Java int, read as an unsigned number. */
  function Unsigned(h: int): (u: nat)
    requires IsInt(h)
    ensures u < TwoTo32
    ensures h >= 0 ==> u == h
  {
    if h < 0 then h + TwoTo32 else h
  }

  /** Character.digit(c, 36) restricted to ASCII: the digit value of c, or -1. */
  function DigitOf(c: char): int {
    if '0' <= c <= '9' then c as int - '0' as int
    else if 'a' <= c <= 'z' then c as int - 'a' as int + 10
    else if 'A' <= c <= 'Z' then c as int - 'A' as int + 10
    else -1
  }

  predicate AllDigits(s: string, radix: nat) {
    forall i :: 0 <= i < |s| ==> 0 <= DigitOf(s[i]) < radix
  }

  /** The number a digit string denotes in the given radix (most significant digit first). */
  function Value(s: string, radix: nat): nat
    requires AllDigits(s, radix)
    decreases |s|
  {
    if s == [] then 0 else Value(s[..|s| - 1], radix) * radix + DigitOf(s[|s| - 1])
  }

  /**
   * Integer.parseInt(s), and so Integer.valueOf(s), as in the Java 5 and 6 class libraries:
   * an optional '-', then at least one decimal digit, and the value must fit in an int. Every
   * other input, null and a leading '+' included, throws NumberFormatException, which is None here.
   */
  function ParseInt(s: Option<string>): (r: Option<int>)
    ensures r.Some? ==> IsInt(r.value)
  {
    if s.None? || s.value == [] then None
    else
      var t := s.value;
      var digits := if t[0] == '-' then t[1..] else t;
      if digits == [] || !AllDigits(digits, 10) then None
      else
        var v: int := if t[0] == '-' then -(Value(digits, 10) as int) else Value(digits, 10);
        if IsInt(v) then Some(v) else None
  }

  /** An unsigned digit string parses to its value when that fits in an int. */
  lemma ParseUnsignedDigits(s: string)
    requires s != [] && AllDigits(s, 10)
    ensures ParseInt(Some(s)) == if IsInt(Value(s, 10)) then Some(Value(s, 10) as int) else None
  {
    assert 0 <= DigitOf(s[0]);
  }

  /** A string without a minus sign that holds a character other than a decimal digit does not parse. */
  lemma ParseRejectsNonDigit(s: string, i: nat)
    requires i < |s| && s[0] != '-'
    requires !(0 <= DigitOf(s[i]) < 10)
    ensures ParseInt(Some(s)).None?
  {
  }

  /** The lower-case digit character of d, as Integer.toString and Integer.toHexString write it. */
  function DigitChar(d: nat): (c: char)
    requires d < 36
    ensures DigitOf(c) == d
  {
    if d < 10 then ('0' as int + d) as char else ('a' as int + d - 10) as char
  }

  /** Appending a digit shifts the value by one place. */
  lemma ValueAppend(p: string, d: nat, radix: nat)
    requires 2 <= radix <= 36 && d < radix && AllDigits(p, radix)
    ensures AllDigits(p + [DigitChar(d)], radix)
    ensures Value(p + [DigitChar(d)], radix) == Value(p, radix) * radix + d
  {
    var s := p + [DigitChar(d)];
    assert s[..|s| - 1] == p;
  }

  /**
   * The digits of n, without leading zeros ("0" for zero), in one of the two radixes the
   * source writes (Integer.toString, Integer.toHexString); reading them back yields n.
   */
  function ToDigits(n: nat, radix: nat): (s: string)
    requires radix == 10 || radix == 16
    ensures |s| >= 1 && AllDigits(s, radix)
    ensures Value(s, radix) == n
    decreases n
  {
    if n < radix then
      ValueAppend([], n, radix);
      [] + [DigitChar(n)]
    else
      var p := ToDigits(n / radix, radix);
      ValueAppend(p, n % radix, radix);
      p + [DigitChar(n % radix)]
  }

  /** n '0' characters, the padding Java code prepends by hand. */
  function Zeros(n: nat): (z: string)
    ensures |z| == n
  {
    seq(n, _ => '0')
  }

  /** Leading zeros change neither the validity nor the value of a digit string. */
  lemma {:induction false} ValueLeadingZeros(k: nat, s: string, radix: nat)
    requires 2 <= radix <= 36 && AllDigits(s, radix)
    ensures AllDigits(Zeros(k) + s, radix)
    ensures Value(Zeros(k) + s, radix) == Value(s, radix)
    decreases |s| + k
  {
    var t := Zeros(k) + s;
    assert forall i :: 0 <= i < |t| ==> t[i] == (if i < k then '0' else s[i - k]);
    if s == [] {
      if k > 0 {
        assert t[..|t| - 1] == Zeros(k - 1) + [];
        ValueLeadingZeros(k - 1, [], radix);
      }
    } else {
      assert t[..|t| - 1] == Zeros(k) + s[..|s| - 1];
      ValueLeadingZeros(k, s[..|s| - 1], radix);
    }
  }

  /** Leading zeros do not change what an unsigned string parses to, or whether it parses. */
  lemma ParseLeadingZeros(k: nat, s: string)
    requires s != [] && s[0] != '-'
    ensures ParseInt(Some(Zeros(k) + s)) == ParseInt(Some(s))
  {
    var t := Zeros(k) + s;
    assert t[0] == '0' || t[0] == s[0];
    if AllDigits(s, 10) {
      ValueLeadingZeros(k, s, 10);
      ParseUnsignedDigits(s);
      ParseUnsignedDigits(t);
    } else {
      var i :| 0 <= i < |s| && !(0 <= DigitOf(s[i]) < 10);
      assert t[k + i] == s[i];
      ParseRejectsNonDigit(s, i);
      ParseRejectsNonDigit(t, k + i);
    }
  }

  /**
   * A string of decimal digits is worth no more in radix 10 than in radix 16, and the same
   * only when it is a single digit's worth (every digit before the last is 0).
   */
  lemma {:induction false} DecimalReadOfHex(s: string)
    requires AllDigits(s, 10)
    ensures AllDigits(s, 16)
    ensures Value(s, 10) <= Value(s, 16)
    ensures Value(s, 10) == Value(s, 16) ==> Value(s, 16) < 10
    decreases |s|
  {
    if s != [] {
      var p := s[..|s| - 1];
      assert AllDigits(p, 10);
      DecimalReadOfHex(p);
      assert Value(s, 16) - Value(s, 10) == 6 * Value(p, 16) + 10 * (Value(p, 16) - Value(p, 10));
    }
  }

  /** Integer.toString(x). */
  function ToString(x: int): string {
    if x < 0 then "-" + ToDigits(-x, 10) else ToDigits(x, 10)
  }

  /** Integer.parseInt inverts Integer.toString on every int. */
  lemma ParseToString(x: int)
    requires IsInt(x)
    ensures ParseInt(Some(ToString(x))) == Some(x)
  {
    if x < 0 {
      var d := ToDigits(-x, 10);
      assert ("-" + d)[1..] == d;
    } else {
      var d := ToDigits(x, 10);
      assert 0 <= DigitOf(d[0]);
    }
  }

  /** Integer.toHexString(h): the two's-complement bits of h in lower-case hex, without leading zeros. */
  function ToHexString(h: int): (s: string)
    requires IsInt(h)
    ensures |s| >= 1 && AllDigits(s, 16)
  {
    ToDigits(Unsigned(h), 16)
  }

  /** A number below 16 is written as its single hex digit. */
  lemma HexOfDigit(h: int)
    requires 0 <= h < 16
    ensures ToHexString(h) == [DigitChar(h)]
  {
  }

  /** Integer.toHexString(16) is "10". */
  lemma HexOfSixteen()
    ensures ToHexString(16) == "10"
  {
    assert ToDigits(16, 16) == ToDigits(1, 16) + [DigitChar(0)];
  }

  /** Integer.parseInt("10") is ten. */
  lemma ParseTen()
    ensures ParseInt(Some("10")) == Some(10)
  {
    assert "10"[..1] == "1" && "1"[..0] == [];
    assert Value("10", 10) == 10;
    ParseUnsignedDigits("10");
  }

  /** A single digit parses to its value. */
  lemma ParseOneDigit(d: nat)
    requires d < 10
    ensures ParseInt(Some([DigitChar(d)])) == Some(d)
  {
    ValueAppend([], d, 10);
    assert [] + [DigitChar(d)] == [DigitChar(d)];
    ParseUnsignedDigits([DigitChar(d)]);
  }

  /** String.trim removes every leading and trailing character up to U+0020. */
  predicate IsWhite(c: char) {
    c <= ' '
  }

  predicate IsTrimmed(s: string) {
    s == [] || (!IsWhite(s[0]) && !IsWhite(s[|s| - 1]))
  }

  function TrimStart(s: string): (r: string)
    ensures |r| <= |s| && r == s[|s| - |r|..]
    ensures forall k :: 0 <= k < |s| - |r| ==> IsWhite(s[k])
    ensures r == [] || !IsWhite(r[0])
    ensures s == [] || !IsWhite(s[0]) ==> r == s
    decreases |s|
  {
    if s != [] && IsWhite(s[0]) then TrimStart(s[1..]) else s
  }

  function TrimEnd(s: string): (r: string)
    ensures |r| <= |s| && r == s[..|r|]
    ensures forall k :: |r| <= k < |s| ==> IsWhite(s[k])
    ensures r == [] || !IsWhite(r[|r| - 1])
    ensures s == [] || !IsWhite(s[|s| - 1]) ==> r == s
    decreases |s|
  {
    if s != [] && IsWhite(s[|s| - 1]) then TrimEnd(s[..|s| - 1]) else s
  }

  /**
   * String.trim: the result is the middle of s with only white space cut from either end; it
   * has no white space at either end, and a string without any there is left alone.
   */
  function Trim(s: string): (r: string)
    ensures IsTrimmed(r)
    ensures IsTrimmed(s) <==> r == s
    ensures exists i, j ::
              && 0 <= i <= j <= |s| && r == s[i..j]
              && (forall k :: 0 <= k < i ==> IsWhite(s[k]))
              && (forall k :: j <= k < |s| ==> IsWhite(s[k]))
  {
    var t := TrimStart(s);
    var r := TrimEnd(t);
    assert r != [] ==> r[0] == t[0];
    var i := |s| - |t|;
    assert r == s[i..i + |r|];
    assert forall k :: i + |r| <= k < |s| ==> s[k] == t[k - i];
    r
  }

  /** Java's long division a / b for a positive divisor: the quotient is rounded toward zero. */
  function Quot(a: int, b: int): int
    requires b > 0
  {
    if a >= 0 then a / b else -((-a) / b)
  }
}

=== FILE: util.dfy ===
/** Small wrapper datatypes shared by the crawl stacker and the transfer agent. */
module Util {

  /** A Java reference that may be null. */
  datatype Option<+T> = None | Some(value: T) {
    function GetOr(default: T): T {
      match this
      case Some(v) => v
      case None => default
    }
  }

  /** A computation that either yields a value or throws; the error carries the exception's name. */
  datatype Result<+T> = Ok(value: T) | Err(error: string)

  /** No element occurs twice. */
  ghost predicate NoDuplicates<T>(s: seq<T>) {
    forall i, j :: 0 <= i < j < |s| ==> s[i] != s[j]
  }
}
